=== FILE: README.md ===
# Kademlia routing table and vanishing data objects, in Dafny

This project models two pieces of a Kademlia node written in Go:

- **The routing table** (`kademlia.go`). It covers:
  - the bucket index of a node ID (`FindKBucket`) and the prefix-length distance (`FindDistance`, `FindMaxDist`);
  - lookup of a contact across the 160 buckets (`FindContact`) and of a value in the local table (`LocalFindValue`);
  - the eviction decision made when a contact is observed (`UpdateContactInKBucket`);
  - the outward scan that gathers 20 close contacts (`FindCloseContacts`);
  - contact equality (`areSameContacts`, `alreadyContacted`).
- **Vanishing data objects** (`vanish.go`). It covers:
  - the derivation of share locations from an access key (`CalculateSharedKeyLocations`);
  - the threshold computation;
  - the byte layout of a stored share;
  - the store loop of `VanishData` and the retrieval loop of `UnvanishData`;
  - the `VanishingDataObject` record.

State is modelled as immutable values, and most operations are pure functions. Three are methods:

- `AlreadyContacted` and `CalculateSharedKeyLocations` are loops.
- `FindMaxDist` is a method because Go visits a map in an unspecified order. The method picks the next key with a nondeterministic choice (`:|`), so its contract holds for every visiting order.

Modules:

- `Wrappers` (`wrappers.dfy`): `Option` and `Result`.
- `Identifier` (`identifier.dfy`):
  - 20-byte IDs and bytewise XOR;
  - `PrefixLen` as the number of leading zero bits;
  - a bit-level reading of `PrefixLen`.
- `Contacts` (`contacts.dfy`): the `Contact` triple, `SameContacts` and `AlreadyContacted`.
- `RoutingTable` (`routing.dfy`): the node state and the table operations.
  - Buckets hold at most `K = 20` contacts, and there are 160 of them.
  - `ValidTable` is the invariant that bucket updates keep.
- `CloseContacts` (`closest.dfy`):
  - `FindCloseContacts` with a round budget;
  - an independent reference sequence `Gathered` (the contacts in visiting order), with the lemmas connecting the two.
- `Ping` (`ping.dfy`): the ping of the eviction decision as the Go code writes it (see "Findings").
- `Vanish` (`vanish.dfy`): locations, threshold, share packing, the store and retrieval loops, and the round trip from one to the other.

The calls the code makes into the outside world are parameters:

- **The ping in the eviction decision** is the boolean `firstResponds` in the intended model. In the as-written model it is the boolean `firstReachable`, which tells whether the peer can be dialled and called.
- **The `math/rand` generator** is `Prng`. `prng(seed)(n)` is the `n`-th byte drawn from a generator seeded with `seed`.
- **AES, `sss.Split` and `sss.Combine`** are the function fields of `Collaborators`.
- **The share storage** is a map from ID to bytes.
- **Go's iteration order over the split map** is the parameter `order`. `order` may list the map's keys in any order.

Several files are not part of this model: `ID.go`, `kbucket.go` and `rpcs.go`. The operations from them that the core uses are defined here directly:

- **`Xor`** is bytewise exclusive or.
- **`PrefixLen`** counts the leading zero bits, so it is 160 for the zero ID.
- **`KBucket.Update`** has three cases:
  - an ID already present moves to the tail;
  - a new ID is appended while the bucket has room;
  - a full bucket yields an error that names the new contact.
  - The eviction in `UpdateContactInKBucket` edits the bucket at the error's `index` field. The model takes that to be the bucket `FindKBucket` chose, which is the bucket `Update` was called on.
- **`RemoveContact`** drops the contacts with the given ID.

Two details of the Go code are kept as they are:

- The threshold is `numberKeys / 2` rounded down (`byte(0.5 * float64(numberKeys))`), not rounded to nearest.
- The `threshold` argument of `VanishData` is ignored.

## Model

| member | source | states |
|---|---|---|
| Identifier.XorNatProperties | kademlia/src/kademlia/kademlia.go:97 | XOR of two naturals is symmetric, and is zero exactly when the operands are equal |
| Identifier.XorByteProperties | kademlia/src/kademlia/kademlia.go:97 | the same for bytes: symmetric, and zero exactly on equal bytes |
| Identifier.XorZero | kademlia/src/kademlia/kademlia.go:97-98 | the XOR distance of two IDs is the zero ID exactly when the IDs are equal |
| Identifier.PrefixLenBits | kademlia/src/kademlia/kademlia.go:97-102 | `PrefixLen` is at most 160, every bit before it is clear, and the bit at it is set when it is below 160 |
| Identifier.PrefixLenFull | kademlia/src/kademlia/kademlia.go:98 | the prefix length is 160 exactly for the all-zero ID |
| RoutingTable.FindDistanceProperties | kademlia/src/kademlia/kademlia.go:527-529 | the distance is symmetric, at most 160, and 160 exactly between equal IDs |
| RoutingTable.FindKBucket | kademlia/src/kademlia/kademlia.go:96-108 | the index is below 160; it is 0 for our own ID and `159 - FindDistance` for any other |
| RoutingTable.SearchBucket | kademlia/src/kademlia/kademlia.go:126-131 | a bucket scan finds a contact exactly when one has the ID, and returns the first one with it |
| RoutingTable.FindContact | kademlia/src/kademlia/kademlia.go:119-136 | our own ID gives `SelfContact`; another ID is found exactly when some bucket holds it, and the contact returned carries that ID and lies in a bucket; otherwise the error is "Contact not found!" |
| RoutingTable.LocalFindValueReply | kademlia/src/kademlia/kademlia.go:271-279 | the reply starts with "OK" exactly when the key is present with a non-empty value, and its rest decodes to exactly the stored bytes; otherwise it is the not-found message |
| RoutingTable.LocalFindValueAfterStore | kademlia/src/kademlia/kademlia.go:271-279 | after a non-empty value is stored under a key, the lookup returns it; an empty value reads as not found |
| RoutingTable.RemoveContact | kademlia/src/kademlia/kademlia.go:461 | the result keeps exactly the contacts without the ID, is no longer, and is strictly shorter when the ID was present |
| RoutingTable.UpdateContactInKBucket | kademlia/src/kademlia/kademlia.go:452-464 | only the bucket of the updated ID can change; the node ID, self contact, value table and every other bucket stay as they were |
| RoutingTable.UpdateKnownOrRoom | kademlia/src/kademlia/kademlia.go:452-456 | a known ID moves to the tail and a new one is appended when there is room; the bucket then holds the new contact plus the old ones with other IDs |
| RoutingTable.UpdateFullBucket | kademlia/src/kademlia/kademlia.go:457-463 | for a new ID and a full bucket: if the first contact answers, it moves from the front to the tail and nothing else changes; if not, the bucket becomes its tail followed by the new contact (the intended eviction, see "Findings") |
| Ping.DoPing | kademlia/src/kademlia/kademlia.go:140-165 | the ping replies exactly when the peer can be reached and every reply begins with "OK"; its refresh changes only the pinged contact's bucket, where a contact already present ends up at the tail, and keeps the node ID and the value table; otherwise the process ends |
| Ping.UpdateContactInKBucketAsWritten | kademlia/src/kademlia/kademlia.go:452-464 | with `DoPing` as written, the update ends the process exactly when the bucket is full, the ID is new and the least recently seen contact cannot be reached |
| Ping.EvictionUnreachable | kademlia/src/kademlia/kademlia.go:452-464 | with the ping as written, a known ID or a bucket with room is updated as intended; otherwise the result is the process exit or only the refresh of the least recently seen contact, so the eviction branch is never taken |
| Ping.AsWrittenAgreesUnlessUnreachable | kademlia/src/kademlia/kademlia.go:452-464 | the update as written equals the intended update whenever the least recently seen contact is reachable, and whenever it does not end the process; when it ends the process, the intended update would evict that contact and append the new one |
| Ping.UpdateAsWrittenFullBucket | kademlia/src/kademlia/kademlia.go:457-463 | as written, for a full bucket and a new ID: a reachable first contact is moved to the tail (the bucket becomes its tail followed by that contact) and nothing else changes; an unreachable one ends the process; the new contact never enters the bucket |
| RoutingTable.UpdatePreservesValidTable | kademlia/src/kademlia/kademlia.go:452-464 | every update keeps each bucket at most 20 long, free of repeated IDs, and holding only IDs of its band |
| RoutingTable.FindContactAfterUpdate | kademlia/src/kademlia/kademlia_test.go:184-201 | once a contact has been placed in its bucket, looking up its ID returns exactly that contact (ID, host and port) |
| RoutingTable.FindMaxDist | kademlia/src/kademlia/kademlia.go:531-544 | an empty shortlist gives the zero ID and `MinInt32`; otherwise the result is a shortlist ID with its own distance, and no entry has a larger `FindDistance` (a longer common prefix, so the result is the closest entry) |
| Contacts.SameContacts | kademlia/src/kademlia/kademlia.go:555-561 | true exactly when host bytes, node ID and port all agree, that is, when the contacts are equal |
| Contacts.AlreadyContacted | kademlia/src/kademlia/kademlia.go:546-553 | true exactly when the contact is in the list |
| CloseContacts.ScanBucket | kademlia/src/kademlia/kademlia.go:511-516 | one bucket scan extends the list by a prefix of the bucket; it stops exactly when it crosses 20, with 20, and otherwise appends the whole bucket |
| CloseContacts.Widen | kademlia/src/kademlia/kademlia.go:500-524 | whenever the widening loop returns, it has 20 contacts extending the starting list, each from that list or from the table |
| CloseContacts.FindCloseContacts | kademlia/src/kademlia/kademlia.go:483-525 | whenever it returns: exactly 20 contacts, all from the table, starting with the key's bucket in order; a key bucket of exactly 20 is returned as it is |
| CloseContacts.FindCloseContactsGathered | kademlia/src/kademlia/kademlia.go:483-525 | within a round budget the result is the first 20 contacts in visiting order (key bucket, then right and left neighbours per round, clamped at 159 and 0) when the key bucket has at most 20 and the rounds gather 20; otherwise it has not returned |
| CloseContacts.FindCloseContactsNeverReturns | kademlia/src/kademlia/kademlia.go:503-524 | with both edge buckets empty and fewer than 20 contacts in the table, no budget makes it return |
| CloseContacts.FindCloseContactsReturns | kademlia/src/kademlia/kademlia.go:483-525 | it returns for some budget exactly when the key bucket has at most 20 contacts and an edge bucket is non-empty or the table holds 20; 179 rounds then suffice |
| CloseContacts.FindCloseContactsDuplicates | kademlia/src/kademlia/kademlia.go:503-524 | when bucket 0 holds the only contact and the key falls there, the edge is re-scanned and the result is that one contact 20 times |
| Vanish.CalculateSharedKeyLocations | kademlia/src/kademlia/vanish.go:38-47 | exactly `count` IDs; byte `j` of ID `i` is draw `i * 20 + j` of the generator seeded with the access key, so equal keys give equal locations |
| Vanish.LocationsPrefix | kademlia/src/kademlia/vanish.go:38-47 | the locations for `n` keys are the first `n` of those for any `m >= n` |
| Vanish.Threshold | kademlia/src/kademlia/vanish.go:84-85 | the threshold is half the number of keys rounded down, never above it, and below it when there is at least one key |
| Vanish.UnpackShare | kademlia/src/kademlia/vanish.go:137-138 | reading a stored value fails exactly when it is empty, as it is for a missing location |
| Vanish.UnpackPacked | kademlia/src/kademlia/vanish.go:137-138 | unpacking a packed share `[key] + bytes` gives back exactly the key and bytes |
| Vanish.PackUnpacked | kademlia/src/kademlia/vanish.go:93 | every value that unpacks is the packing of the key and bytes it unpacks to |
| Vanish.StoreShares | kademlia/src/kademlia/vanish.go:91-104 | the store loop stays in bounds exactly when it has at most as many shares as locations |
| Vanish.StoreSharesLast | kademlia/src/kademlia/vanish.go:92-103 | a location not written again later holds the packed share the loop wrote there |
| Vanish.StoreSharesUntouched | kademlia/src/kademlia/vanish.go:92-103 | an ID the loop does not write keeps its old value, or stays absent |
| Vanish.VanishData | kademlia/src/kademlia/vanish.go:80-114 | it succeeds exactly when the split has at most `numberKeys` shares; the object carries the access key used for the locations, the ciphertext, `numberKeys` and the computed threshold |
| Vanish.VanishDataStores | kademlia/src/kademlia/vanish.go:91-111 | with distinct locations, the `c`-th share in iteration order sits packed at location `c`, and every other ID is untouched |
| Vanish.VanishDataInBounds | kademlia/src/kademlia/vanish.go:89-104 | all writes stay in bounds exactly when the split map has at most `numberKeys` entries |
| Vanish.CollectShares | kademlia/src/kademlia/vanish.go:126-143 | the retrieval loop succeeds exactly when every location up to the threshold exists and holds a non-empty value |
| Vanish.CollectSharesKeys | kademlia/src/kademlia/vanish.go:137-140 | the keys collected are those already held plus the first byte of each queried value |
| Vanish.CollectSharesLast | kademlia/src/kademlia/vanish.go:137-140 | a later share with the same key overwrites an earlier one: each key maps to the bytes of the last queried location carrying it |
| Vanish.CollectSharesKept | kademlia/src/kademlia/vanish.go:137-140 | a share whose key no queried location carries keeps its bytes |
| Vanish.UnvanishData | kademlia/src/kademlia/vanish.go:116-148 | it reaches the combining and decryption exactly when the threshold is below the number of keys and every one of the `Threshold + 1` re-derived locations holds a value |
| Vanish.UnvanishStored | kademlia/src/kademlia/vanish.go:116-147 | when location `c` holds the `c`-th share packed, unvanishing combines exactly the first `Threshold + 1` shares and decrypts the ciphertext with the result |
| Vanish.VanishUnvanishRoundTrip | kademlia/src/kademlia/vanish.go:80-148 | after `VanishData` succeeds with at least one key and distinct locations, `UnvanishData` on its object and storage decrypts with the key combined from the first `Threshold + 1` shares, and so returns the data whenever combining and decryption invert splitting and encryption |

## Findings

| source | as written | input that shows it | evidently intended | confidence | as-written member | corrected member |
|---|---|---|---|---|---|---|
| kademlia/src/kademlia/kademlia.go:140-164 | `DoPing` either refreshes the answering contact and returns "OK: Contact updated in KBucket", or calls `log.Fatal`, so the `status[0:2] != "OK"` test in `UpdateContactInKBucket` (lines 460-463) is never true | a full bucket, a contact with a new ID, and a least recently seen contact that cannot be dialled: the node process exits; one that answers is only moved to the tail | an unresponsive least recently seen contact is evicted and the new contact appended | high, not executed | Ping.UpdateContactInKBucketAsWritten | RoutingTable.UpdateContactInKBucket |

## Left out

- `NewKademlia`: RPC server setup, listening and address lookup are network I/O. The node state is taken as given.
- `DoStore`, `DoFindNode`, `DoFindValue` and `SendRPC` are network calls. `DoPing` is reduced to its outcome: a reply with the refreshed node, or the process exit.
- Ping.DoPing: the reply's sender is taken to be the pinged contact, because the peer's side of the ping (`rpcs.go`) is not part of this model. The refresh is modelled with a responding first contact, which is exact when the sender's ID is already in its bucket.
- RoutingTable.UpdateContactInKBucket: `firstResponds = false` stands for a ping status that does not begin with "OK". `DoPing` as written never returns one (see "Findings"), so this case models the evidently intended eviction, not the code as written. `firstResponds = true` includes the refresh of the answering contact that `DoPing` performs, so it agrees with the code as written (`Ping.AsWrittenAgreesUnlessUnreachable`). The model also assumes the error from `KBucket.Update` carries the index of the bucket it was called on.
- `DoIterativeFindNode` and `DoIterativeFindNodeWrapper`: these are goroutines, channels and sleeps. Also, `contacted` starts at length 20, so the lookup loop never runs.
- `DoIterativeStore` and `DoIterativeFindValue` are stubs with fixed replies.
- `UpdateContacts`: it calls `Update` on a copy of the bucket at the raw prefix length, not at `FindKBucket`'s index. The copy shares its contact slice with the table's bucket. Whether that write reaches the table depends on `KBucket.Update`, which is not part of this model.
- Mutexes are left out because every operation is modelled sequentially.
- `NotFoundError` keeps only its message. The `id` field is never set by `FindContact`, so it always holds the zero ID.
- Vanish.UnvanishData: Go's `decrypt` works in place, so a call overwrites the caller's `vdo.Ciphertext` after the first AES block with the plaintext, and the returned slice shares that memory. A second `UnvanishData` on the same object then does not return the data. The model's object is an immutable value and this overwrite is not modelled.
- AES-CFB `encrypt` and `decrypt`, `crypto/rand`, `GenerateRandomCryptoKey` and `GenerateRandomAccessKey` are foreign cryptography and randomness. The content key and the access key are parameters of `VanishData`. `encrypt` and `decrypt` are total functions in the model. Their panics are not modelled: a combined key of a length AES rejects, a ciphertext shorter than one AES block, or a failing `crypto/rand` read.
- `sss.Split` and `sss.Combine` come from an external package. They are uninterpreted functions, and the round trip states its conclusion relative to them.
- The float expression `0.5 * float64(numberKeys)` is integer division by 2. The two agree for every byte.
- The return string of `VanishData` names a field, `vdo.VdoID`, that the record does not have. The model returns the object and the new storage instead.
- The file-based stand-ins for the network store and lookup are left out, as is `play.go`. Storage is a map, and a store replaces the value at an ID. The file stand-in appends a line, and the lookup reads the first line back. The two agree when every location is written at most once and no share contains a newline byte. A share must also not end in a carriage return byte (0x0D), which the line reader drops. It must also fit in the line reader's 64 KiB token limit. The round trip assumes distinct locations.
- FindCloseContacts: the Go loop has no exit other than reaching 20 contacts. The model bounds it by a number of widening rounds, and `None` means "has not returned after that many rounds". The unused `req` argument is dropped.
- Vanish.VanishUnvanishRoundTrip: it assumes the derived locations are distinct and the split has exactly `numberKeys` shares. Colliding locations or a short split are outside the statement.

=== FILE: closest.dfy ===
/**
 * `FindCloseContacts`: gather 20 contacts from the routing table, starting
 * with the bucket of the key and widening one bucket to the right and one to
 * the left per round, clamped at buckets 159 and 0.
 *
 * The Go loop has no exit other than reaching 20 contacts, so it can run
 * forever. The model counts rounds with `fuel`: `None` means "has not
 * returned after that many rounds".
 */
module CloseContacts {
  import opened Wrappers
  import opened Identifier
  import opened Contacts
  import opened RoutingTable

  /**
   * A round budget that always suffices when the search returns at all: by
   * round `LastBucket` both edges have been reached, and each further round
   * re-scans a non-empty edge bucket, adding at least one contact.
   */
  const EnoughRounds: nat := LastBucket + K

  /** The state after scanning one bucket: returned with 20 contacts, or still gathering. */
  datatype Scan = Done(contacts: seq<Contact>) | More(contacts: seq<Contact>)

  /**
   * One `for _, val := range bucket` loop: append the bucket's contacts one
   * at a time and return as soon as the list has exactly 20. A list that
   * already holds 20 or more never reaches 20 by growing.
   */
  function ScanBucket(b: Bucket, acc: seq<Contact>): (r: Scan)
    ensures acc <= r.contacts <= acc + b
    ensures r.Done? <==> |acc| < K <= |acc| + |b|
    ensures r.Done? ==> |r.contacts| == K
    ensures r.More? ==> r.contacts == acc + b
    decreases |b|
  {
    if |b| == 0 then More(acc)
    else
      var acc' := acc + [b[0]];
      assert acc' + b[1..] == acc + b;
      if |acc'| == K then Done(acc') else ScanBucket(b[1..], acc')
  }

  /** A contact held by some bucket of the table. */
  predicate InTable(buckets: Buckets, c: Contact)
  {
    exists i :: 0 <= i < BucketCount && c in buckets[i]
  }

  /** `left` moves one bucket down unless it is already at 0. */
  function StepLeft(left: nat): nat
  {
    if left != 0 then left - 1 else left
  }

  /** `right` moves one bucket up unless it is already at 159. */
  function StepRight(right: nat): nat
  {
    if right != LastBucket then right + 1 else right
  }

  /**
   * The widening loop, at most `fuel` more rounds. Each round scans bucket
   * `right` after stepping it, then bucket `left` after stepping it.
   */
  function Widen(buckets: Buckets, left: nat, right: nat, contacts: seq<Contact>, fuel: nat): (r: Option<seq<Contact>>)
    requires left < BucketCount && right < BucketCount
    ensures r.Some? ==> |r.value| == K && contacts <= r.value
    ensures r.Some? ==> forall c :: c in r.value ==> c in contacts || InTable(buckets, c)
    decreases fuel
  {
    if fuel == 0 then None
    else
      var l := StepLeft(left);
      var rt := StepRight(right);
      match ScanBucket(buckets[rt], contacts)
      case Done(c) => Some(c)
      case More(c1) =>
        match ScanBucket(buckets[l], c1)
        case Done(c) => Some(c)
        case More(c2) => Widen(buckets, l, rt, c2, fuel - 1)
  }

  /**
   * `FindCloseContacts(key, req)` with at most `fuel` widening rounds (the
   * Go function also takes `req`, which it never reads). Whenever it
   * returns, the result has exactly 20 contacts, all from the routing
   * table, and starts with the key's own bucket in order; a key bucket of
   * exactly 20 is the whole answer.
   */
  function FindCloseContacts(kad: Kademlia, key: ID, fuel: nat): (r: Option<seq<Contact>>)
    ensures r.Some? ==> |r.value| == K
    ensures r.Some? ==> forall c :: c in r.value ==> InTable(kad.BucketList, c)
    ensures r.Some? ==> kad.BucketList[FindKBucket(kad.NodeID, key)] <= r.value
    ensures |kad.BucketList[FindKBucket(kad.NodeID, key)]| == K ==>
      r == Some(kad.BucketList[FindKBucket(kad.NodeID, key)])
  {
    var index := FindKBucket(kad.NodeID, key);
    var contacts := kad.BucketList[index];
    if |contacts| == K then Some(contacts)
    else Widen(kad.BucketList, index, index, contacts, fuel)
  }

  // ---------------------------------------------------------------------------
  // Reference: the contacts in visiting order

  /** The left bucket after `t` rounds from `index`. */
  function Lo(index: nat, t: nat): nat
  {
    if t <= index then index - t else 0
  }

  /** The right bucket after `t` rounds from `index`. */
  function Hi(index: nat, t: nat): nat
  {
    if index + t <= LastBucket then index + t else LastBucket
  }

  /**
   * All contacts the scan would append in `t` full rounds, in order: the key
   * bucket, then for each round `s = 1..t` bucket `min(index + s, 159)`
   * followed by bucket `max(index - s, 0)`. Edge buckets repeat once reached.
   */
  function Gathered(buckets: Buckets, index: nat, t: nat): seq<Contact>
    requires index < BucketCount
  {
    if t == 0 then buckets[index]
    else Gathered(buckets, index, t - 1) + buckets[Hi(index, t)] + buckets[Lo(index, t)]
  }

  /** Later rounds only extend the gathered sequence. */
  lemma {:induction false} GatheredPrefix(buckets: Buckets, index: nat, t: nat, u: nat)
    requires index < BucketCount && t <= u
    ensures Gathered(buckets, index, t) <= Gathered(buckets, index, u)
    decreases u - t
  {
    if t < u {
      GatheredPrefix(buckets, index, t, u - 1);
    }
  }

  /** Two sequences extending a common prefix of length at least `n` agree on their first `n`. */
  lemma PrefixTake(a: seq<Contact>, c: seq<Contact>, n: nat)
    requires a <= c && n <= |a|
    ensures a[..n] == c[..n]
  {
  }

  /**
   * The widening loop started after `t` rounds and allowed to run up to
   * round `u` returns the first 20 gathered contacts exactly when it starts
   * below 20 and the contacts of `u` rounds reach 20.
   */
  lemma {:induction false} WidenGathered(buckets: Buckets, index: nat, t: nat, u: nat)
    requires index < BucketCount && t <= u
    ensures Widen(buckets, Lo(index, t), Hi(index, t), Gathered(buckets, index, t), u - t)
      == FirstK(Gathered(buckets, index, t), Gathered(buckets, index, u))
    decreases u - t
  {
    if t < u {
      WidenGathered(buckets, index, t + 1, u);
      WidenStep(buckets, index, t, u);
    }
  }

  /** The closed form for the rounds after `t + 1` extends to the rounds after `t`. */
  lemma WidenStep(buckets: Buckets, index: nat, t: nat, u: nat)
    requires index < BucketCount && t < u
    requires Widen(buckets, Lo(index, t + 1), Hi(index, t + 1), Gathered(buckets, index, t + 1), u - (t + 1))
      == FirstK(Gathered(buckets, index, t + 1), Gathered(buckets, index, u))
    ensures Widen(buckets, Lo(index, t), Hi(index, t), Gathered(buckets, index, t), u - t)
      == FirstK(Gathered(buckets, index, t), Gathered(buckets, index, u))
  {
    if |Gathered(buckets, index, t)| < K <= |Gathered(buckets, index, t + 1)| {
      WidenCrosses(buckets, index, t, u);
    } else {
      WidenPasses(buckets, index, t, u);
    }
  }

  /** The round after `t` crosses 20: the loop returns the first 20 of any later gathering. */
  lemma WidenCrosses(buckets: Buckets, index: nat, t: nat, u: nat)
    requires index < BucketCount && t < u
    requires |Gathered(buckets, index, t)| < K <= |Gathered(buckets, index, t + 1)|
    ensures Widen(buckets, Lo(index, t), Hi(index, t), Gathered(buckets, index, t), u - t)
      == FirstK(Gathered(buckets, index, t), Gathered(buckets, index, u))
  {
    var g := Gathered(buckets, index, t);
    var g1 := Gathered(buckets, index, t + 1);
    var h := Gathered(buckets, index, u);
    WidenRound(buckets, index, t, u - t);
    assert Widen(buckets, Lo(index, t), Hi(index, t), g, u - t) == Some(g1[..K]);
    GatheredPrefix(buckets, index, t + 1, u);
    PrefixTake(g1, h, K);
    assert FirstK(g, h) == Some(h[..K]);
  }

  /** The round after `t` does not cross 20: the loop's outcome is that of the next round. */
  lemma WidenPasses(buckets: Buckets, index: nat, t: nat, u: nat)
    requires index < BucketCount && t < u
    requires !(|Gathered(buckets, index, t)| < K <= |Gathered(buckets, index, t + 1)|)
    requires Widen(buckets, Lo(index, t + 1), Hi(index, t + 1), Gathered(buckets, index, t + 1), u - (t + 1))
      == FirstK(Gathered(buckets, index, t + 1), Gathered(buckets, index, u))
    ensures Widen(buckets, Lo(index, t), Hi(index, t), Gathered(buckets, index, t), u - t)
      == FirstK(Gathered(buckets, index, t), Gathered(buckets, index, u))
  {
    WidenRound(buckets, index, t, u - t);
    assert |Gathered(buckets, index, t)| <= |Gathered(buckets, index, t + 1)|;
  }

  /** The first 20 of `h` when growing from `g` to `h` crosses 20, `None` otherwise. */
  function FirstK(g: seq<Contact>, h: seq<Contact>): Option<seq<Contact>>
  {
    if |g| < K <= |h| then Some(h[..K]) else None
  }

  /**
   * One round of the widening loop: it returns the first 20 contacts of the
   * next round's gathering when that round crosses 20, and otherwise goes
   * on from there.
   */
  lemma WidenRound(buckets: Buckets, index: nat, t: nat, fuel: nat)
    requires index < BucketCount && fuel > 0
    ensures var g := Gathered(buckets, index, t);
      var g1 := Gathered(buckets, index, t + 1);
      |g| < K <= |g1| ==> Widen(buckets, Lo(index, t), Hi(index, t), g, fuel) == Some(g1[..K])
    ensures var g := Gathered(buckets, index, t);
      var g1 := Gathered(buckets, index, t + 1);
      !(|g| < K <= |g1|) ==>
        Widen(buckets, Lo(index, t), Hi(index, t), g, fuel) == Widen(buckets, Lo(index, t + 1), Hi(index, t + 1), g1, fuel - 1)
  {
    var g := Gathered(buckets, index, t);
    var g1 := Gathered(buckets, index, t + 1);
    var l, rt := Lo(index, t + 1), Hi(index, t + 1);
    assert StepLeft(Lo(index, t)) == l;
    assert StepRight(Hi(index, t)) == rt;
    assert g1 == g + buckets[rt] + buckets[l];
    var s1 := ScanBucket(buckets[rt], g);
    if s1.Done? {
      ScanDoneTake(s1.contacts, g + buckets[rt], g1, g1);
    } else {
      var s2 := ScanBucket(buckets[l], s1.contacts);
      if s2.Done? {
        ScanDoneTake(s2.contacts, g1, g1, g1);
      } else {
        assert s2.contacts == g1;
      }
    }
  }

  /** A list of 20 that is a prefix of `a`, itself a prefix of `b` and of `h`, is the first 20 of `h`. */
  lemma ScanDoneTake(c: seq<Contact>, a: seq<Contact>, b: seq<Contact>, h: seq<Contact>)
    requires |c| == K && c <= a && a <= b && b <= h
    ensures c == h[..K] && K <= |h|
  {
  }

  /**
   * `FindCloseContacts` in closed form: within `fuel` rounds it returns the
   * first 20 contacts in visiting order, provided the key bucket has at
   * most 20 contacts and `fuel` rounds gather at least 20; otherwise it has
   * not returned.
   */
  lemma FindCloseContactsGathered(kad: Kademlia, key: ID, fuel: nat)
    ensures var index := FindKBucket(kad.NodeID, key);
      var g := Gathered(kad.BucketList, index, fuel);
      FindCloseContacts(kad, key, fuel)
        == if |kad.BucketList[index]| <= K <= |g| then Some(g[..K]) else None
  {
    var index := FindKBucket(kad.NodeID, key);
    var b := kad.BucketList[index];
    var g := Gathered(kad.BucketList, index, fuel);
    GatheredPrefix(kad.BucketList, index, 0, fuel);
    assert Gathered(kad.BucketList, index, 0) == b;
    if |b| == K {
      assert b[..K] == b;
      PrefixTake(b, g, K);
    } else {
      assert Lo(index, 0) == index && Hi(index, 0) == index;
      WidenGathered(kad.BucketList, index, 0, fuel);
    }
  }

  // ---------------------------------------------------------------------------
  // When does it return?

  /** Total number of contacts in buckets `lo .. hi - 1`. */
  function SumRange(buckets: Buckets, lo: nat, hi: nat): nat
    requires lo <= hi <= BucketCount
    decreases hi - lo
  {
    if lo == hi then 0 else |buckets[lo]| + SumRange(buckets, lo + 1, hi)
  }

  lemma {:induction false} SumRangeLast(buckets: Buckets, lo: nat, hi: nat)
    requires lo < hi <= BucketCount
    ensures SumRange(buckets, lo, hi) == SumRange(buckets, lo, hi - 1) + |buckets[hi - 1]|
    decreases hi - lo
  {
    if lo + 1 < hi {
      SumRangeLast(buckets, lo + 1, hi);
    }
  }

  lemma {:induction false} SumRangeWithin(buckets: Buckets, lo: nat, hi: nat)
    requires lo <= hi <= BucketCount
    ensures SumRange(buckets, lo, hi) <= SumRange(buckets, 0, BucketCount)
    decreases lo + (BucketCount - hi)
  {
    if hi < BucketCount {
      SumRangeLast(buckets, lo, hi + 1);
      SumRangeWithin(buckets, lo, hi + 1);
    } else if 0 < lo {
      SumRangeWithin(buckets, lo - 1, hi);
    }
  }

  /**
   * After `t` rounds every bucket between the two edges of the scan has
   * been read at least once; when the edge buckets 0 and 159 are empty,
   * exactly once.
   */
  lemma {:induction false} GatheredCoversRange(buckets: Buckets, index: nat, t: nat)
    requires index < BucketCount
    ensures |Gathered(buckets, index, t)| >= SumRange(buckets, Lo(index, t), Hi(index, t) + 1)
    ensures |buckets[0]| == 0 && |buckets[LastBucket]| == 0 ==>
      |Gathered(buckets, index, t)| == SumRange(buckets, Lo(index, t), Hi(index, t) + 1)
  {
    if t > 0 {
      GatheredCoversRange(buckets, index, t - 1);
      var lo, hi := Lo(index, t - 1), Hi(index, t - 1);
      var lo', hi' := Lo(index, t), Hi(index, t);
      if hi' != hi {
        SumRangeLast(buckets, lo, hi' + 1);
      }
      if lo' != lo {
        assert SumRange(buckets, lo', hi' + 1) == |buckets[lo']| + SumRange(buckets, lo, hi' + 1);
      }
    }
  }

  /** Once both edges are reached, every further round adds the two edge buckets again. */
  lemma {:induction false} GatheredEdgeGrowth(buckets: Buckets, index: nat, m: nat)
    requires index < BucketCount
    requires |buckets[0]| > 0 || |buckets[LastBucket]| > 0
    ensures |Gathered(buckets, index, LastBucket + m)| >= m
  {
    if m > 0 {
      GatheredEdgeGrowth(buckets, index, m - 1);
      assert Hi(index, LastBucket + m) == LastBucket && Lo(index, LastBucket + m) == 0;
    }
  }

  /**
   * If both edge buckets are empty and the whole table holds fewer than 20
   * contacts, `FindCloseContacts` never returns, however many rounds run.
   */
  lemma FindCloseContactsNeverReturns(kad: Kademlia, key: ID, fuel: nat)
    requires |kad.BucketList[0]| == 0 && |kad.BucketList[LastBucket]| == 0
    requires SumRange(kad.BucketList, 0, BucketCount) < K
    ensures FindCloseContacts(kad, key, fuel) == None
  {
    var index := FindKBucket(kad.NodeID, key);
    FindCloseContactsGathered(kad, key, fuel);
    GatheredCoversRange(kad.BucketList, index, fuel);
    SumRangeWithin(kad.BucketList, Lo(index, fuel), Hi(index, fuel) + 1);
  }

  /**
   * `FindCloseContacts` returns for some number of rounds exactly when the
   * key bucket holds at most 20 contacts and either an edge bucket is
   * non-empty (it is re-scanned every round) or the table holds at least 20
   * contacts; 179 rounds then always suffice.
   */
  lemma FindCloseContactsReturns(kad: Kademlia, key: ID)
    ensures (exists fuel: nat :: FindCloseContacts(kad, key, fuel).Some?) <==>
      && |kad.BucketList[FindKBucket(kad.NodeID, key)]| <= K
      && (|kad.BucketList[0]| > 0 || |kad.BucketList[LastBucket]| > 0 || SumRange(kad.BucketList, 0, BucketCount) >= K)
    ensures var index := FindKBucket(kad.NodeID, key);
      |kad.BucketList[index]| <= K
        && (|kad.BucketList[0]| > 0 || |kad.BucketList[LastBucket]| > 0 || SumRange(kad.BucketList, 0, BucketCount) >= K)
      ==> FindCloseContacts(kad, key, EnoughRounds).Some?
  {
    var buckets := kad.BucketList;
    var index := FindKBucket(kad.NodeID, key);
    if |buckets[index]| <= K && (|buckets[0]| > 0 || |buckets[LastBucket]| > 0 || SumRange(buckets, 0, BucketCount) >= K) {
      FindCloseContactsEnoughRounds(kad, key, EnoughRounds);
    }
    if exists fuel: nat :: FindCloseContacts(kad, key, fuel).Some? {
      var fuel: nat :| FindCloseContacts(kad, key, fuel).Some?;
      FindCloseContactsOnlyIf(kad, key, fuel);
    }
  }

  /** Whenever it returns, the key bucket is within capacity and enough contacts are reachable. */
  lemma FindCloseContactsOnlyIf(kad: Kademlia, key: ID, fuel: nat)
    requires FindCloseContacts(kad, key, fuel).Some?
    ensures |kad.BucketList[FindKBucket(kad.NodeID, key)]| <= K
    ensures |kad.BucketList[0]| > 0 || |kad.BucketList[LastBucket]| > 0 || SumRange(kad.BucketList, 0, BucketCount) >= K
  {
    FindCloseContactsGathered(kad, key, fuel);
    if !(|kad.BucketList[0]| > 0 || |kad.BucketList[LastBucket]| > 0 || SumRange(kad.BucketList, 0, BucketCount) >= K) {
      FindCloseContactsNeverReturns(kad, key, fuel);
    }
  }

  /** Under the same conditions, 179 rounds (and any number beyond) are enough. */
  lemma FindCloseContactsEnoughRounds(kad: Kademlia, key: ID, fuel: nat)
    requires fuel >= EnoughRounds
    requires |kad.BucketList[FindKBucket(kad.NodeID, key)]| <= K
    requires |kad.BucketList[0]| > 0 || |kad.BucketList[LastBucket]| > 0 || SumRange(kad.BucketList, 0, BucketCount) >= K
    ensures FindCloseContacts(kad, key, fuel).Some?
  {
    var index := FindKBucket(kad.NodeID, key);
    FindCloseContactsGathered(kad, key, fuel);
    GatheredReachesK(kad.BucketList, index, fuel);
  }

  /** From round 179 on, the gathered contacts number at least 20 when an edge is non-empty or the table holds 20. */
  lemma GatheredReachesK(buckets: Buckets, index: nat, fuel: nat)
    requires index < BucketCount && fuel >= EnoughRounds
    requires |buckets[0]| > 0 || |buckets[LastBucket]| > 0 || SumRange(buckets, 0, BucketCount) >= K
    ensures |Gathered(buckets, index, fuel)| >= K
  {
    GatheredPrefix(buckets, index, LastBucket, fuel);
    if |buckets[0]| > 0 || |buckets[LastBucket]| > 0 {
      GatheredEdgeGrowth(buckets, index, fuel - LastBucket);
      assert LastBucket + (fuel - LastBucket) == fuel;
    } else {
      GatheredCoversRange(buckets, index, LastBucket);
      assert Lo(index, LastBucket) == 0 && Hi(index, LastBucket) == LastBucket;
    }
  }

  /** With only one contact, in bucket 0, the scan from bucket 0 returns that contact 20 times. */
  lemma {:induction false} GatheredSingleEdge(buckets: Buckets, c: Contact, t: nat)
    requires buckets[0] == [c]
    requires forall i :: 1 <= i < BucketCount ==> buckets[i] == []
    ensures Gathered(buckets, 0, t) == seq(t + 1, _ => c)
  {
    if t > 0 {
      GatheredSingleEdge(buckets, c, t - 1);
      assert Lo(0, t) == 0 && Hi(0, t) >= 1;
    }
  }

  /**
   * Duplicates: when the key falls in bucket 0 (as it does for the node's
   * own ID) and bucket 0 holds the only contact, the edge bucket is
   * re-scanned every round and the result is that one contact 20 times.
   */
  lemma FindCloseContactsDuplicates(kad: Kademlia, c: Contact)
    requires kad.BucketList[0] == [c]
    requires forall i :: 1 <= i < BucketCount ==> kad.BucketList[i] == []
    ensures FindCloseContacts(kad, kad.NodeID, K - 1) == Some(seq(K, _ => c))
  {
    FindCloseContactsGathered(kad, kad.NodeID, K - 1);
    GatheredSingleEdge(kad.BucketList, c, K - 1);
    var g := Gathered(kad.BucketList, 0, K - 1);
    assert g == seq(K, _ => c);
    assert g[..K] == g;
  }
}

=== FILE: contacts.dfy ===
/** Contacts: the (NodeID, Host, Port) triple by which a peer is known. */
module Contacts {
  import opened Identifier

  /** A TCP port, Go's `uint16`. */
  newtype uint16 = x: int | 0 <= x < 0x1_0000

  /** A peer: its node ID, the raw bytes of its IP address and its port. */
  datatype Contact = Contact(NodeID: ID, Host: seq<byte>, Port: uint16)

  /**
   * `areSameContacts`: the host bytes, the node ID and the port all agree.
   * Comparing the three fields is the same as comparing the contacts.
   */
  function SameContacts(first: Contact, second: Contact): (r: bool)
    ensures r <==> first == second
  {
    first.Host == second.Host && first.NodeID == second.NodeID && first.Port == second.Port
  }

  /** `alreadyContacted`: some element of `contacted` is the same contact as `c`. */
  method AlreadyContacted(contacted: seq<Contact>, c: Contact) returns (r: bool)
    ensures r <==> c in contacted
  {
    for i := 0 to |contacted|
      invariant c !in contacted[..i]
    {
      if SameContacts(contacted[i], c) {
        return true;
      }
    }
    assert contacted[..|contacted|] == contacted;
    return false;
  }
}

=== FILE: identifier.dfy ===
/**
 * Kademlia node identifiers: 160-bit values stored as 20 bytes, the XOR
 * metric between them, and the length of the common prefix of two IDs.
 */
module Identifier {

  /** Go's `byte`. */
  newtype byte = x: int | 0 <= x < 256

  /**
   * Bitwise exclusive or of two naturals, one binary digit at a time from
   * the least significant: equal digits give 0, different digits give 1.
   */
  function XorNat(a: nat, b: nat): nat
    decreases a + b
  {
    if a == 0 then b
    else if b == 0 then a
    else 2 * XorNat(a / 2, b / 2) + (if a % 2 == b % 2 then 0 else 1)
  }

  /** Exclusive or never sets a bit above the operands' highest bit. */
  lemma {:induction false} XorNatBound(a: nat, b: nat, w: nat)
    requires a < w && b < w
    requires w == 1 || w == 2 || w == 4 || w == 8 || w == 16 || w == 32 || w == 64 || w == 128 || w == 256
    ensures XorNat(a, b) < w
    decreases a + b
  {
    if a != 0 && b != 0 {
      XorNatBound(a / 2, b / 2, w / 2);
    }
  }

  /** Exclusive or is symmetric and is zero exactly on equal operands. */
  lemma {:induction false} XorNatProperties(a: nat, b: nat)
    ensures XorNat(a, b) == XorNat(b, a)
    ensures XorNat(a, b) == 0 <==> a == b
    decreases a + b
  {
    if a != 0 && b != 0 {
      XorNatProperties(a / 2, b / 2);
    }
  }

  /** Go's `a ^ b` on bytes. */
  function XorByte(a: byte, b: byte): byte
  {
    XorNatBound(a as nat, b as nat, 256);
    XorNat(a as nat, b as nat) as byte
  }

  /** XOR of bytes is symmetric and is zero exactly on equal bytes. */
  lemma XorByteProperties(a: byte, b: byte)
    ensures XorByte(a, b) == XorByte(b, a)
    ensures XorByte(a, b) == 0 <==> a == b
  {
    XorNatProperties(a as nat, b as nat);
  }

  /** Number of bytes of an ID (`IDBytes`) and of bits (`b = 8 * IDBytes`). */
  const IDBytes: nat := 20
  const IDBits: nat := 8 * IDBytes

  /** A node ID or a storage key: exactly `IDBytes` bytes, most significant first. */
  type ID = s: seq<byte> | |s| == IDBytes witness Zero()

  /** The all-zero ID; Go's zero value for the `ID` array type. */
  function Zero(): (z: seq<byte>)
    ensures |z| == IDBytes
    ensures forall i :: 0 <= i < |z| ==> z[i] == 0
  {
    seq(IDBytes, _ => 0 as byte)
  }

  /** Bytewise exclusive or: the XOR distance between two IDs. */
  function Xor(a: ID, b: ID): (d: ID)
    ensures forall i :: 0 <= i < IDBytes ==> d[i] == XorByte(a[i], b[i])
  {
    seq(IDBytes, i requires 0 <= i < IDBytes => XorByte(a[i], b[i]))
  }

  /** The weight of bit `j` of a byte, bit 0 being the most significant. */
  function BitWeight(j: nat): nat
    requires j < 8
  {
    [128, 64, 32, 16, 8, 4, 2, 1][j]
  }

  /** Bit `j` of byte `x` is set, counting from the most significant bit. */
  predicate ByteBit(x: byte, j: nat)
    requires j < 8
  {
    (x as int / BitWeight(j)) % 2 == 1
  }

  /** Bit `i` of an ID, counting from the most significant bit of byte 0. */
  predicate Bit(d: ID, i: nat)
    requires i < IDBits
  {
    ByteBit(d[i / 8], i % 8)
  }

  /** Number of leading zero bits of one byte (8 for the zero byte). */
  function ByteLeadingZeros(x: byte): (n: nat)
    ensures n <= 8
    ensures n == 8 <==> x == 0
  {
    if x >= 128 then 0
    else if x >= 64 then 1
    else if x >= 32 then 2
    else if x >= 16 then 3
    else if x >= 8 then 4
    else if x >= 4 then 5
    else if x >= 2 then 6
    else if x >= 1 then 7
    else 8
  }

  /** Leading zero bits of `d` counted from byte `i` on (bytes before `i` are not looked at). */
  function PrefixFrom(d: ID, i: nat): (n: nat)
    requires i <= IDBytes
    ensures 8 * i <= n <= IDBits
    decreases IDBytes - i
  {
    if i == IDBytes then IDBits
    else if d[i] == 0 then PrefixFrom(d, i + 1)
    else 8 * i + ByteLeadingZeros(d[i])
  }

  /** Number of leading zero bits of `d`; 160 exactly when `d` is all zeros. */
  function PrefixLen(d: ID): nat
  {
    PrefixFrom(d, 0)
  }

  /** The bit-level meaning of one byte's leading-zero count. */
  lemma ByteLeadingZerosBits(x: byte)
    ensures forall j: nat :: j < ByteLeadingZeros(x) ==> !ByteBit(x, j)
    ensures ByteLeadingZeros(x) < 8 ==> ByteBit(x, ByteLeadingZeros(x))
  {
  }

  /** `PrefixFrom` counts exactly the zero bits that precede the first set bit at or after byte `i`. */
  lemma {:induction false} PrefixFromBits(d: ID, i: nat)
    requires i <= IDBytes
    ensures forall p: nat :: 8 * i <= p < PrefixFrom(d, i) ==> !Bit(d, p)
    ensures PrefixFrom(d, i) < IDBits ==> Bit(d, PrefixFrom(d, i))
    decreases IDBytes - i
  {
    if i == IDBytes {
    } else if d[i] == 0 {
      PrefixFromBits(d, i + 1);
      forall p: nat | 8 * i <= p < 8 * i + 8
        ensures !Bit(d, p)
      {
        assert p / 8 == i;
      }
    } else {
      ByteLeadingZerosBits(d[i]);
      forall p: nat | 8 * i <= p < PrefixFrom(d, i)
        ensures !Bit(d, p)
      {
        assert p / 8 == i && p % 8 == p - 8 * i;
      }
      var n := PrefixFrom(d, i);
      if n < IDBits {
        assert n / 8 == i && n % 8 == n - 8 * i;
      }
    }
  }

  /**
   * `PrefixLen` is the number of leading zero bits: every bit before it is
   * clear and, unless all 160 bits are clear, the bit at that position is set.
   * These two facts determine the count uniquely.
   */
  lemma PrefixLenBits(d: ID)
    ensures PrefixLen(d) <= IDBits
    ensures forall p: nat :: p < PrefixLen(d) ==> !Bit(d, p)
    ensures PrefixLen(d) < IDBits ==> Bit(d, PrefixLen(d))
  {
    PrefixFromBits(d, 0);
  }

  /** An ID has 160 leading zero bits exactly when it is the zero ID. */
  lemma {:induction false} PrefixFromFull(d: ID, i: nat)
    requires i <= IDBytes
    ensures PrefixFrom(d, i) == IDBits <==> forall j :: i <= j < IDBytes ==> d[j] == 0
    decreases IDBytes - i
  {
    if i < IDBytes {
      PrefixFromFull(d, i + 1);
      if d[i] != 0 {
        assert 8 * i + ByteLeadingZeros(d[i]) < IDBits;
      }
    }
  }

  lemma PrefixLenFull(d: ID)
    ensures PrefixLen(d) == IDBits <==> d == Zero()
  {
    PrefixFromFull(d, 0);
    if PrefixLen(d) == IDBits {
      assert d == Zero();
    }
  }

  /** XOR is symmetric, and the distance between two IDs is zero exactly when they are equal. */
  lemma XorSymmetric(a: ID, b: ID)
    ensures Xor(a, b) == Xor(b, a)
  {
    forall i | 0 <= i < IDBytes
      ensures XorByte(a[i], b[i]) == XorByte(b[i], a[i])
    {
      XorByteProperties(a[i], b[i]);
    }
  }

  lemma XorZero(a: ID, b: ID)
    ensures Xor(a, b) == Zero() <==> a == b
  {
    if Xor(a, b) == Zero() {
      forall i | 0 <= i < IDBytes
        ensures a[i] == b[i]
      {
        assert Xor(a, b)[i] == 0;
        XorByteProperties(a[i], b[i]);
      }
    }
    if a == b {
      forall i | 0 <= i < IDBytes
        ensures Xor(a, b)[i] == Zero()[i]
      {
        XorByteProperties(a[i], b[i]);
      }
    }
  }
}

=== FILE: ping.dfy ===
/**
 * The ping of `UpdateContactInKBucket` as the Go code writes it. `DoPing`
 * either refreshes the answering contact and replies "OK: ...", or ends the
 * process with `log.Fatal`, so the eviction of an unresponsive contact is
 * never reached. `RoutingTable.UpdateContactInKBucket` models the intended
 * eviction instead.
 */
module Ping {
  import opened Wrappers
  import opened Contacts
  import opened RoutingTable

  /** The only reply `DoPing` ever returns. */
  const PingReply: string := "OK: Contact updated in KBucket"

  /**
   * How `DoPing` ends: with its reply and the node after the refresh when
   * the dial and the call both succeed; otherwise `log.Fatal` ends the
   * whole process.
   */
  datatype PingEnd = Replied(status: string, node: Kademlia) | ProcessExit

  /**
   * `DoPing` of contact `pinged`, as written. On success the node observes
   * the reply's sender with `UpdateContactInKBucket`; the sender is taken to
   * be `pinged` itself, since the peer's side of the ping is not part of this
   * model. The refresh is given a responding first contact: an ID already in
   * its bucket, as `pinged` is when it comes from the table, needs no ping.
   */
  function DoPing(kad: Kademlia, pinged: Contact, reachable: bool): (r: PingEnd)
    ensures r.Replied? <==> reachable
    ensures r.Replied? ==> |r.status| >= 2 && r.status[..2] == "OK"
    ensures r.Replied? ==> r.node.NodeID == kad.NodeID && r.node.Table == kad.Table
    ensures var index := FindKBucket(kad.NodeID, pinged.NodeID);
      r.Replied? ==>
        && (forall i :: 0 <= i < BucketCount && i != index ==> r.node.BucketList[i] == kad.BucketList[i])
        && (HasNode(kad.BucketList[index], pinged.NodeID) ==>
              var b' := r.node.BucketList[index];
              |b'| > 0 && b'[|b'| - 1] == pinged)
  {
    if reachable then Replied(PingReply, UpdateContactInKBucket(kad, pinged, true)) else ProcessExit
  }

  /**
   * The eviction written in `UpdateContactInKBucket`: drop `first` from the
   * bucket at `index` and append `c`.
   */
  function Evict(kad: Kademlia, index: nat, first: Contact, c: Contact): Kademlia
  {
    if index < BucketCount then
      kad.(BucketList := kad.BucketList[index := RemoveContact(kad.BucketList[index], first.NodeID) + [c]])
    else kad
  }

  /**
   * `UpdateContactInKBucket` with the ping of the least recently seen
   * contact going through `DoPing` as written: `None` is the process exit.
   * After the ping, the node evicts only when the status does not begin
   * with "OK".
   */
  function UpdateContactInKBucketAsWritten(kad: Kademlia, update: Contact, firstReachable: bool): (r: Option<Kademlia>)
    ensures r.None? <==>
      Update(kad.BucketList[FindKBucket(kad.NodeID, update.NodeID)], update).Err? && !firstReachable
  {
    var index := FindKBucket(kad.NodeID, update.NodeID);
    var bucket := kad.BucketList[index];
    match Update(bucket, update)
    case Ok(b) => Some(kad.(BucketList := kad.BucketList[index := b]))
    case Err(err) =>
      var first := bucket[0];
      match DoPing(kad, first, firstReachable)
      case ProcessExit => None
      case Replied(status, node) =>
        Some(if status[..2] != "OK" then Evict(node, index, first, err.updated) else node)
  }

  /**
   * As written, the eviction is never taken: a known contact or a bucket
   * with room is updated as intended, and otherwise the outcome is the
   * process exit or only the refresh of the least recently seen contact.
   */
  lemma EvictionUnreachable(kad: Kademlia, c: Contact, firstReachable: bool)
    ensures var bucket := kad.BucketList[FindKBucket(kad.NodeID, c.NodeID)];
      UpdateContactInKBucketAsWritten(kad, c, firstReachable) ==
        if Update(bucket, c).Ok? then Some(UpdateContactInKBucket(kad, c, true))
        else if firstReachable then Some(UpdateContactInKBucket(kad, bucket[0], true))
        else None
  {
    var bucket := kad.BucketList[FindKBucket(kad.NodeID, c.NodeID)];
    if Update(bucket, c).Err? && firstReachable {
      assert DoPing(kad, bucket[0], firstReachable).status[..2] == "OK";
    }
  }

  /**
   * The update as written and the intended update differ only where the
   * least recently seen contact cannot be reached: with a reachable one they
   * agree, and an unreachable one ends the process exactly when the intended
   * update would evict it.
   */
  lemma AsWrittenAgreesUnlessUnreachable(kad: Kademlia, c: Contact, firstReachable: bool)
    requires ValidTable(kad)
    ensures firstReachable ==>
      UpdateContactInKBucketAsWritten(kad, c, firstReachable) == Some(UpdateContactInKBucket(kad, c, true))
    ensures var r := UpdateContactInKBucketAsWritten(kad, c, firstReachable);
      r.Some? ==> r == Some(UpdateContactInKBucket(kad, c, firstReachable))
    ensures var index := FindKBucket(kad.NodeID, c.NodeID);
      UpdateContactInKBucketAsWritten(kad, c, firstReachable).None? ==>
        UpdateContactInKBucket(kad, c, firstReachable).BucketList[index]
          == RemoveContact(kad.BucketList[index], kad.BucketList[index][0].NodeID) + [c]
  {
    EvictionUnreachable(kad, c, firstReachable);
    var index := FindKBucket(kad.NodeID, c.NodeID);
    var b := kad.BucketList[index];
    if Update(b, c).Err? {
      assert ValidBucket(b);
      var first := b[0];
      assert first in b;
      assert FindKBucket(kad.NodeID, first.NodeID) == index;
      assert HasNode(b, first.NodeID);
      assert Update(b, first) == Ok(RemoveContact(b, first.NodeID) + [first]);
    }
  }

  /**
   * A full bucket meeting a new contact, as written: an unreachable least
   * recently seen contact ends the process; a reachable one is moved to the
   * tail by the refresh and the rest of the node is unchanged. Either way
   * the new contact never gets in. The intended behaviour, eviction of the
   * unresponsive contact, is `UpdateFullBucket`.
   */
  lemma UpdateAsWrittenFullBucket(kad: Kademlia, c: Contact, firstReachable: bool)
    requires ValidTable(kad)
    requires var b := kad.BucketList[FindKBucket(kad.NodeID, c.NodeID)];
      !HasNode(b, c.NodeID) && |b| == K
    ensures var index := FindKBucket(kad.NodeID, c.NodeID);
      var b := kad.BucketList[index];
      UpdateContactInKBucketAsWritten(kad, c, firstReachable)
        == if firstReachable then Some(kad.(BucketList := kad.BucketList[index := b[1..] + [b[0]]])) else None
    ensures var index := FindKBucket(kad.NodeID, c.NodeID);
      forall r :: UpdateContactInKBucketAsWritten(kad, c, firstReachable) == Some(r) ==>
        c !in r.BucketList[index]
  {
    EvictionUnreachable(kad, c, firstReachable);
    var index := FindKBucket(kad.NodeID, c.NodeID);
    var b := kad.BucketList[index];
    assert ValidBucket(b);
    var first := b[0];
    assert first in b;
    assert FindKBucket(kad.NodeID, first.NodeID) == index;
    assert HasNode(b, first.NodeID);
    RemoveFirst(b);
    assert Update(b, first) == Ok(b[1..] + [first]);
    assert c !in b;
    assert c !in b[1..] + [first];
  }
}

=== FILE: routing.dfy ===
/**
 * The local node's routing state: 160 k-buckets indexed by XOR distance to
 * the node's own ID, the local key/value table, and the sequential logic
 * that reads and updates them.
 */
module RoutingTable {
  import opened Wrappers
  import opened Identifier
  import opened Contacts

  /** Bucket capacity `k` and number of buckets `bucket_count`. */
  const K: nat := 20
  const BucketCount: nat := 160

  /** The highest bucket index: bucket 159 holds the IDs farthest from ours. */
  const LastBucket: nat := BucketCount - 1

  /** `math.MinInt32`, the starting maximum of `FindMaxDist`. */
  const MinInt32: int := -0x8000_0000

  /** A k-bucket's contact list, least recently seen first. */
  type Bucket = seq<Contact>

  /** `BucketList`: always exactly `bucket_count` buckets. */
  type Buckets = s: seq<Bucket> | |s| == BucketCount witness seq(BucketCount, _ => [])

  /** The state of one node. Locks are left out: every operation here is sequential. */
  datatype Kademlia = Kademlia(
    NodeID: ID,
    SelfContact: Contact,
    BucketList: Buckets,
    Table: map<ID, seq<byte>>)

  /** The error `FindContact` returns when no bucket holds the ID. */
  datatype NotFoundError = NotFoundError(msg: string)

  const ContactNotFound: string := "Contact not found!"

  // ---------------------------------------------------------------------------
  // Distance and bucket index

  /** `FindDistance`: the length of the common prefix of two IDs. */
  function FindDistance(keyOne: ID, keyTwo: ID): nat
  {
    PrefixLen(Xor(keyOne, keyTwo))
  }

  /** The prefix-length distance is symmetric, at most 160, and 160 exactly between equal IDs. */
  lemma FindDistanceProperties(a: ID, b: ID)
    ensures FindDistance(a, b) == FindDistance(b, a)
    ensures FindDistance(a, b) <= IDBits
    ensures FindDistance(a, b) == IDBits <==> a == b
  {
    XorSymmetric(a, b);
    PrefixLenBits(Xor(a, b));
    PrefixLenFull(Xor(a, b));
    XorZero(a, b);
  }

  /**
   * `FindKBucket`: the index of the bucket responsible for `nodeId`.
   * Bucket 159 holds IDs that differ from ours in the first bit; bucket 0
   * holds those that differ only in the last bit, and also our own ID.
   */
  function FindKBucket(self: ID, nodeId: ID): (index: nat)
    ensures index < BucketCount
    ensures nodeId == self ==> index == 0
    ensures nodeId != self ==> index == LastBucket - FindDistance(self, nodeId)
  {
    FindDistanceProperties(self, nodeId);
    var prefixLen := PrefixLen(Xor(self, nodeId));
    if prefixLen == IDBits then 0 else LastBucket - prefixLen
  }

  // ---------------------------------------------------------------------------
  // Contact lookup

  /** Some contact of `b` carries node ID `id`. */
  predicate HasNode(b: Bucket, id: ID)
  {
    exists c :: c in b && c.NodeID == id
  }

  /** The first contact of one bucket with node ID `id`, scanning from the front. */
  function SearchBucket(b: Bucket, id: ID): (r: Option<Contact>)
    ensures r.Some? <==> HasNode(b, id)
    ensures r.Some? ==> exists j :: 0 <= j < |b| && b[j] == r.value && r.value.NodeID == id
                                  && forall j' :: 0 <= j' < j ==> b[j'].NodeID != id
  {
    if |b| == 0 then None
    else if b[0].NodeID == id then Some(b[0])
    else
      var r := SearchBucket(b[1..], id);
      assert forall c :: c in b[1..] ==> c in b;
      assert forall c :: c in b ==> c == b[0] || c in b[1..];
      if r.Some? then
        var j :| 0 <= j < |b[1..]| && b[1..][j] == r.value && r.value.NodeID == id
                 && forall j' :: 0 <= j' < j ==> b[1..][j'].NodeID != id;
        assert b[j + 1] == r.value;
        r
      else r
  }

  /** The first contact with node ID `id` in buckets `from`, `from + 1`, ..., 159. */
  function SearchBuckets(buckets: Buckets, id: ID, from: nat): (r: Result<Contact, NotFoundError>)
    requires from <= BucketCount
    ensures r.Ok? <==> exists i :: from <= i < BucketCount && HasNode(buckets[i], id)
    ensures r.Ok? ==> r.value.NodeID == id && exists i :: from <= i < BucketCount && r.value in buckets[i]
    ensures r.Err? ==> r.error == NotFoundError(ContactNotFound)
    decreases BucketCount - from
  {
    if from == BucketCount then Err(NotFoundError(ContactNotFound))
    else match SearchBucket(buckets[from], id)
      case Some(c) => Ok(c)
      case None => SearchBuckets(buckets, id, from + 1)
  }

  /**
   * `FindContact`: our own ID answers with our own contact without looking at
   * the buckets; any other ID is found exactly when some bucket holds a
   * contact with that ID, and then that contact is returned.
   */
  function FindContact(kad: Kademlia, nodeId: ID): (r: Result<Contact, NotFoundError>)
    ensures nodeId == kad.NodeID ==> r == Ok(kad.SelfContact)
    ensures nodeId != kad.NodeID ==>
      (r.Ok? <==> exists i :: 0 <= i < BucketCount && HasNode(kad.BucketList[i], nodeId))
    ensures nodeId != kad.NodeID && r.Ok? ==>
      r.value.NodeID == nodeId && exists i :: 0 <= i < BucketCount && r.value in kad.BucketList[i]
    ensures r.Err? ==> r.error == NotFoundError(ContactNotFound)
  {
    if nodeId == kad.NodeID then Ok(kad.SelfContact)
    else SearchBuckets(kad.BucketList, nodeId, 0)
  }

  // ---------------------------------------------------------------------------
  // Local value lookup

  /** Go's `string(bytes)`: one character per byte, same code. */
  function BytesToString(v: seq<byte>): (s: string)
    ensures |s| == |v|
  {
    seq(|v|, i requires 0 <= i < |v| => (v[i] as int) as char)
  }

  /** Reads the bytes back out of a string that `BytesToString` produced. */
  function StringToBytes(s: string): (v: seq<byte>)
    requires forall i :: 0 <= i < |s| ==> s[i] as int < 256
    ensures |v| == |s|
  {
    seq(|s|, i requires 0 <= i < |s| => (s[i] as int) as byte)
  }

  const ValueNotFound: string := "ERR: Value not found in local table"
  const OkPrefix: string := "OK: "

  /** `LocalFindValue`: the reply to a lookup in the local table only. */
  function LocalFindValue(kad: Kademlia, searchKey: ID): (r: string)
    ensures |r| >= 4
  {
    if searchKey !in kad.Table || |kad.Table[searchKey]| == 0 then ValueNotFound
    else OkPrefix + BytesToString(kad.Table[searchKey])
  }

  /**
   * The reply begins with "OK" exactly when the key is present with a
   * non-empty value, and then the rest of the reply decodes to exactly the
   * stored bytes; otherwise it is the not-found message. The table is a value
   * and is not modified.
   */
  lemma LocalFindValueReply(kad: Kademlia, searchKey: ID)
    ensures var r := LocalFindValue(kad, searchKey);
      (r[..2] == "OK" <==> searchKey in kad.Table && |kad.Table[searchKey]| > 0)
    ensures var r := LocalFindValue(kad, searchKey);
      r[..2] == "OK" ==>
        && (forall i :: 4 <= i < |r| ==> r[i] as int < 256)
        && StringToBytes(r[4..]) == kad.Table[searchKey]
    ensures var r := LocalFindValue(kad, searchKey);
      r[..2] != "OK" ==> r == ValueNotFound
  {
    var r := LocalFindValue(kad, searchKey);
    if searchKey in kad.Table && |kad.Table[searchKey]| > 0 {
      var v := kad.Table[searchKey];
      assert r[4..] == BytesToString(v);
      assert StringToBytes(r[4..]) == v;
    } else {
      assert r[..2] == "ER";
    }
  }

  /** After storing a non-empty value under a key, a local lookup of that key returns it. */
  lemma LocalFindValueAfterStore(kad: Kademlia, key: ID, value: seq<byte>)
    requires |value| > 0
    ensures LocalFindValue(kad.(Table := kad.Table[key := value]), key) == OkPrefix + BytesToString(value)
    ensures LocalFindValue(kad.(Table := kad.Table[key := []]), key) == ValueNotFound
  {
  }

  // ---------------------------------------------------------------------------
  // Bucket maintenance

  /** No two contacts of a bucket share a node ID. */
  predicate UniqueNodes(b: Bucket)
  {
    forall i, j :: 0 <= i < j < |b| ==> b[i].NodeID != b[j].NodeID
  }

  /** The well-formedness of one bucket: at most `k` contacts with distinct node IDs. */
  predicate ValidBucket(b: Bucket)
  {
    |b| <= K && UniqueNodes(b)
  }

  /**
   * The table invariant: every bucket is well formed and holds only contacts
   * whose ID belongs to it by `FindKBucket`.
   */
  predicate ValidTable(kad: Kademlia)
  {
    forall i :: 0 <= i < BucketCount ==>
      && ValidBucket(kad.BucketList[i])
      && forall c :: c in kad.BucketList[i] ==> FindKBucket(kad.NodeID, c.NodeID) == i
  }

  /** `KBucket.RemoveContact`: drop the contacts with node ID `id`, keeping the order of the rest. */
  function RemoveContact(b: Bucket, id: ID): (r: Bucket)
    ensures forall c :: c in r <==> c in b && c.NodeID != id
    ensures |r| <= |b|
    ensures HasNode(b, id) ==> |r| < |b|
  {
    if |b| == 0 then []
    else
      assert forall c :: c in b ==> c == b[0] || c in b[1..];
      (if b[0].NodeID == id then [] else [b[0]]) + RemoveContact(b[1..], id)
  }

  /** Removing contacts from a bucket with distinct IDs leaves distinct IDs. */
  lemma {:induction false} RemoveContactUnique(b: Bucket, id: ID)
    requires UniqueNodes(b)
    ensures UniqueNodes(RemoveContact(b, id))
  {
    if |b| > 0 {
      assert UniqueNodes(b[1..]);
      RemoveContactUnique(b[1..], id);
      var rest := RemoveContact(b[1..], id);
      forall c | c in rest
        ensures c.NodeID != b[0].NodeID
      {
        var j :| 0 <= j < |b[1..]| && b[1..][j] == c;
        assert b[j + 1] == c;
      }
      var r := RemoveContact(b, id);
      forall i, j | 0 <= i < j < |r|
        ensures r[i].NodeID != r[j].NodeID
      {
        if b[0].NodeID != id && i == 0 {
          assert r[j] in rest;
        }
      }
    }
  }

  /** With distinct IDs, removing the ID of the front contact drops exactly the front. */
  lemma RemoveFirst(b: Bucket)
    requires UniqueNodes(b) && |b| > 0
    ensures RemoveContact(b, b[0].NodeID) == b[1..]
  {
    forall c | c in b[1..]
      ensures c.NodeID != b[0].NodeID
    {
      var j :| 0 <= j < |b[1..]| && b[1..][j] == c;
      assert b[j + 1] == c;
    }
    NoMatchRemovesNothing(b[1..], b[0].NodeID);
  }

  /** Removing an ID no contact carries changes nothing. */
  lemma {:induction false} NoMatchRemovesNothing(b: Bucket, id: ID)
    requires forall c :: c in b ==> c.NodeID != id
    ensures RemoveContact(b, id) == b
  {
    if |b| > 0 {
      assert forall c :: c in b[1..] ==> c in b;
      NoMatchRemovesNothing(b[1..], id);
    }
  }

  /** The failure `KBucket.Update` reports for a new contact that meets a full bucket. */
  datatype BucketFull = BucketFull(updated: Contact)

  /**
   * `KBucket.Update`, the "observe" step on one bucket: a known node ID is
   * moved to the tail (most recently seen) with the new contact's fields; an
   * unknown one is appended when there is room; otherwise the bucket is full.
   */
  function Update(b: Bucket, c: Contact): (r: Result<Bucket, BucketFull>)
  {
    if HasNode(b, c.NodeID) then Ok(RemoveContact(b, c.NodeID) + [c])
    else if |b| < K then Ok(b + [c])
    else Err(BucketFull(c))
  }

  /**
   * `UpdateContactInKBucket`. `firstResponds` is the outcome of pinging the
   * least recently seen contact, asked only when the bucket is full and the
   * contact is new: if it answers, the ping's own observation of it moves it
   * to the tail; if not, it is removed and the new contact is appended.
   */
  function UpdateContactInKBucket(kad: Kademlia, update: Contact, firstResponds: bool): (r: Kademlia)
    ensures r.NodeID == kad.NodeID && r.SelfContact == kad.SelfContact && r.Table == kad.Table
    ensures forall i :: 0 <= i < BucketCount && i != FindKBucket(kad.NodeID, update.NodeID) ==>
      r.BucketList[i] == kad.BucketList[i]
  {
    var index := FindKBucket(kad.NodeID, update.NodeID);
    var bucket := kad.BucketList[index];
    match Update(bucket, update)
    case Ok(b) => kad.(BucketList := kad.BucketList[index := b])
    case Err(err) =>
      var first := bucket[0];
      if firstResponds then
        kad.(BucketList := kad.BucketList[index := RemoveContact(bucket, first.NodeID) + [first]])
      else
        var b := RemoveContact(bucket, first.NodeID) + [err.updated];
        kad.(BucketList := kad.BucketList[index := b])
  }

  /**
   * Observing a known node moves it to the tail; observing a new node with
   * room appends it. Either way the contact ends up last in its bucket.
   */
  lemma UpdateKnownOrRoom(kad: Kademlia, c: Contact, firstResponds: bool)
    requires var b := kad.BucketList[FindKBucket(kad.NodeID, c.NodeID)];
      HasNode(b, c.NodeID) || |b| < K
    ensures var index := FindKBucket(kad.NodeID, c.NodeID);
      var b := kad.BucketList[index];
      var b' := UpdateContactInKBucket(kad, c, firstResponds).BucketList[index];
      && |b'| > 0 && b'[|b'| - 1] == c
      && (forall x :: x in b' <==> x == c || (x in b && x.NodeID != c.NodeID))
      && (!HasNode(b, c.NodeID) ==> b' == b + [c])
  {
  }

  /**
   * Eviction on a full bucket with a new contact: if the least recently seen
   * contact answers the ping it moves from the front to the tail and nothing
   * else changes; if it does not, it is dropped from the front and the new
   * one is appended.
   */
  lemma UpdateFullBucket(kad: Kademlia, c: Contact, firstResponds: bool)
    requires ValidTable(kad)
    requires var b := kad.BucketList[FindKBucket(kad.NodeID, c.NodeID)];
      !HasNode(b, c.NodeID) && |b| == K
    ensures var index := FindKBucket(kad.NodeID, c.NodeID);
      var b := kad.BucketList[index];
      firstResponds ==> UpdateContactInKBucket(kad, c, firstResponds) == kad.(BucketList := kad.BucketList[index := b[1..] + [b[0]]])
    ensures var index := FindKBucket(kad.NodeID, c.NodeID);
      var b := kad.BucketList[index];
      !firstResponds ==> UpdateContactInKBucket(kad, c, firstResponds).BucketList[index] == b[1..] + [c]
  {
    var index := FindKBucket(kad.NodeID, c.NodeID);
    var b := kad.BucketList[index];
    assert ValidBucket(b);
    assert Update(b, c) == Err(BucketFull(c));
    RemoveFirst(b);
    if !firstResponds {
      assert UpdateContactInKBucket(kad, c, firstResponds).BucketList == kad.BucketList[index := b[1..] + [c]];
    }
  }

  /** The new content of the observed bucket is well formed and holds only contacts of that band. */
  lemma UpdatedBucketValid(kad: Kademlia, c: Contact, firstResponds: bool)
    requires ValidTable(kad)
    ensures var index := FindKBucket(kad.NodeID, c.NodeID);
      var b' := UpdateContactInKBucket(kad, c, firstResponds).BucketList[index];
      && ValidBucket(b')
      && forall x :: x in b' ==> FindKBucket(kad.NodeID, x.NodeID) == index
  {
    var index := FindKBucket(kad.NodeID, c.NodeID);
    var b := kad.BucketList[index];
    var b' := UpdateContactInKBucket(kad, c, firstResponds).BucketList[index];
    assert ValidBucket(b);
    if HasNode(b, c.NodeID) {
      RemoveContactUnique(b, c.NodeID);
      AppendFreshUnique(RemoveContact(b, c.NodeID), c);
    } else if |b| < K {
      AppendFreshUnique(b, c);
    } else if !firstResponds {
      RemoveContactUnique(b, b[0].NodeID);
      AppendFreshUnique(RemoveContact(b, b[0].NodeID), c);
    } else {
      RemoveContactUnique(b, b[0].NodeID);
      AppendFreshUnique(RemoveContact(b, b[0].NodeID), b[0]);
    }
    assert forall x :: x in b' ==> x == c || x in b;
  }

  /** Every observation keeps every bucket within capacity, free of duplicate IDs, and in its band. */
  lemma UpdatePreservesValidTable(kad: Kademlia, c: Contact, firstResponds: bool)
    requires ValidTable(kad)
    ensures ValidTable(UpdateContactInKBucket(kad, c, firstResponds))
  {
    UpdatedBucketValid(kad, c, firstResponds);
  }

  /** Appending a contact whose ID the bucket lacks keeps IDs distinct. */
  lemma AppendFreshUnique(b: Bucket, c: Contact)
    requires UniqueNodes(b)
    requires !HasNode(b, c.NodeID)
    ensures UniqueNodes(b + [c])
  {
    forall i, j | 0 <= i < j < |b + [c]|
      ensures (b + [c])[i].NodeID != (b + [c])[j].NodeID
    {
      if j == |b| {
        assert b[i] in b;
      }
    }
  }

  /** In a valid table a node ID appears at most once across all buckets. */
  lemma ValidTableUniqueAcross(kad: Kademlia, x: Contact, y: Contact, i: nat, j: nat)
    requires ValidTable(kad)
    requires i < BucketCount && j < BucketCount
    requires x in kad.BucketList[i] && y in kad.BucketList[j] && x.NodeID == y.NodeID
    ensures x == y
  {
    var b := kad.BucketList[i];
    var p :| 0 <= p < |b| && b[p] == x;
    var q :| 0 <= q < |b| && b[q] == y;
    assert p == q;
  }

  /**
   * Once a contact has been placed in its bucket, `FindContact` of its ID
   * returns it with its exact ID, host and port (the ping-then-find scenario:
   * a node that answered a ping is found with the address it answered from).
   */
  lemma FindContactAfterUpdate(kad: Kademlia, c: Contact, firstResponds: bool)
    requires ValidTable(kad)
    requires c.NodeID != kad.NodeID
    requires var b := kad.BucketList[FindKBucket(kad.NodeID, c.NodeID)];
      HasNode(b, c.NodeID) || |b| < K || !firstResponds
    ensures FindContact(UpdateContactInKBucket(kad, c, firstResponds), c.NodeID) == Ok(c)
  {
    var index := FindKBucket(kad.NodeID, c.NodeID);
    var r := UpdateContactInKBucket(kad, c, firstResponds);
    UpdatePreservesValidTable(kad, c, firstResponds);
    var b' := r.BucketList[index];
    assert b'[|b'| - 1] == c;
    assert c in b';
    assert HasNode(b', c.NodeID);
    var found := FindContact(r, c.NodeID);
    var i :| 0 <= i < BucketCount && found.value in r.BucketList[i];
    ValidTableUniqueAcross(r, found.value, c, i, index);
  }

  /**
   * `FindMaxDist`: an ID of the shortlist whose distance to `key` is largest.
   * Go visits the map in an unspecified order; the choice below may pick
   * the keys in any order, and the result is the first one to reach the
   * maximum. An empty shortlist yields the zero ID and `math.MinInt32`.
   */
  method FindMaxDist(shortlist: map<ID, bool>, key: ID) returns (maxContactID: ID, maxDistance: int)
    ensures |shortlist| == 0 ==> maxContactID == Zero() && maxDistance == MinInt32
    ensures |shortlist| > 0 ==> maxContactID in shortlist && maxDistance == FindDistance(maxContactID, key)
    ensures forall id :: id in shortlist ==> FindDistance(id, key) <= maxDistance
  {
    maxDistance := MinInt32;
    maxContactID := Zero();
    var rest := shortlist.Keys;
    while rest != {}
      invariant rest <= shortlist.Keys
      invariant rest == shortlist.Keys ==> maxContactID == Zero() && maxDistance == MinInt32
      invariant rest != shortlist.Keys ==>
        maxContactID in shortlist && maxDistance == FindDistance(maxContactID, key)
      invariant forall id :: id in shortlist && id !in rest ==> FindDistance(id, key) <= maxDistance
      decreases rest
    {
      var conID :| conID in rest;
      var newDist := FindDistance(conID, key);
      if newDist > maxDistance {
        maxContactID := conID;
        maxDistance := newDist;
      }
      rest := rest - {conID};
    }
    if |shortlist| == 0 {
      assert shortlist.Keys == {};
    }
  }
}

=== FILE: vanish.dfy ===
/**
 * Vanishing data objects: a payload is encrypted under a fresh key, the key
 * is split into shares, and each share is stored at an ID derived from an
 * access key. Reading the shares back from the IDs the same access key
 * derives, and combining them, recovers the key.
 *
 * Encryption, secret sharing and the random generator are not modelled:
 * they enter as functions in `Collaborators` and as the `Prng` parameter.
 * Storage is a map from ID to bytes.
 */
module Vanish {
  import opened Wrappers
  import opened Identifier

  /** Go's `int64`. */
  newtype int64 = x: int | -0x8000_0000_0000_0000 <= x < 0x8000_0000_0000_0000

  /** `VanishingDataObject`: what the caller keeps to get the data back. */
  datatype VanishingDataObject = VanishingDataObject(
    AccessKey: int64,
    Ciphertext: seq<byte>,
    NumberKeys: byte,
    Threshold: byte)

  /**
   * A `math/rand` generator per seed: `prng(seed)(n)` is the byte
   * `uint8(r.Intn(256))` returns on the `n`-th call (counting from 0) to a
   * generator created with `NewSource(seed)`.
   */
  type Prng = int64 -> nat -> byte

  /** The external operations the vanish layer calls but does not define. */
  datatype Collaborators = Collaborators(
    encrypt: (seq<byte>, seq<byte>) -> seq<byte>,           // encrypt(key, text)
    decrypt: (seq<byte>, seq<byte>) -> seq<byte>,           // decrypt(key, ciphertext)
    split: (byte, byte, seq<byte>) -> map<byte, seq<byte>>, // sss.Split(n, k, secret)
    combine: map<byte, seq<byte>> -> seq<byte>)             // sss.Combine(shares)

  /** The failures that make the Go code panic with an index out of range. */
  datatype VanishError =
    | LocationOutOfRange   // ids[index] with index >= len(ids)
    | EmptyShare           // value[0] on an empty value

  /** The share storage: what `DoIterativeFindValue` would return for each ID. */
  type Storage = map<ID, seq<byte>>

  // ---------------------------------------------------------------------------
  // Share locations

  /**
   * The reference for the share locations: ID `i` consists of draws
   * `20 * i .. 20 * i + 19` of the generator, in order.
   */
  function Locations(draws: nat -> byte, count: nat): (ids: seq<ID>)
    ensures |ids| == count
  {
    seq(count, i requires 0 <= i < count => seq(IDBytes, j requires 0 <= j < IDBytes => draws(i * IDBytes + j)))
  }

  /**
   * `CalculateSharedKeyLocations`: draw `IDBytes` bytes per ID from one
   * generator seeded with the access key alone. Byte `j` of ID `i` is the
   * `(i * IDBytes + j)`-th draw, so the same key always gives the same IDs.
   */
  method CalculateSharedKeyLocations(prng: Prng, accessKey: int64, count: int64) returns (ids: seq<ID>)
    requires count >= 0
    ensures |ids| == count as int
    ensures forall i, j :: 0 <= i < |ids| && 0 <= j < IDBytes ==> ids[i][j] == prng(accessKey)(i * IDBytes + j)
    ensures ids == Locations(prng(accessKey), count as nat)
  {
    var r := prng(accessKey);
    var drawn: nat := 0;
    ids := [];
    var i: int64 := 0;
    while i < count
      invariant 0 <= i <= count
      invariant |ids| == i as int
      invariant drawn == i as int * IDBytes
      invariant forall p, j :: 0 <= p < |ids| && 0 <= j < IDBytes ==> ids[p][j] == r(p * IDBytes + j)
    {
      var id: seq<byte> := [];
      for j := 0 to IDBytes
        invariant |id| == j
        invariant drawn == i as int * IDBytes + j
        invariant forall q :: 0 <= q < j ==> id[q] == r(i as int * IDBytes + q)
      {
        id := id + [r(drawn)];
        drawn := drawn + 1;
      }
      ids := ids + [id];
      i := i + 1;
    }
    var loc := Locations(r, count as nat);
    forall p | 0 <= p < |ids|
      ensures ids[p] == loc[p]
    {
      assert forall j :: 0 <= j < IDBytes ==> ids[p][j] == loc[p][j];
    }
  }

  /** Prefix stability: the first `n` locations do not depend on how many more are asked for. */
  lemma LocationsPrefix(draws: nat -> byte, n: nat, m: nat)
    requires n <= m
    ensures Locations(draws, n) == Locations(draws, m)[..n]
  {
  }

  // ---------------------------------------------------------------------------
  // Threshold and share layout

  /**
   * The threshold `VanishData` uses, `byte(0.5 * float64(numberKeys))`: half
   * of the number of keys, rounded down. For a byte the product is exact.
   */
  function Threshold(numberKeys: byte): (t: byte)
    ensures 2 * (t as int) <= numberKeys as int <= 2 * (t as int) + 1
    ensures t <= numberKeys
    ensures numberKeys >= 1 ==> t < numberKeys
  {
    numberKeys / 2
  }

  /** How a share is stored: its one-byte share key followed by the share bytes. */
  function PackShare(shareKey: byte, shareValue: seq<byte>): (blob: seq<byte>)
    ensures |blob| == |shareValue| + 1
  {
    [shareKey] + shareValue
  }

  /** Reading a share back as `value[0]`, `value[1:]`; an empty value has no byte 0. */
  function UnpackShare(blob: seq<byte>): (r: Result<(byte, seq<byte>), VanishError>)
    ensures r.Err? <==> |blob| == 0
    ensures r.Err? ==> r.error == EmptyShare
  {
    if |blob| == 0 then Err(EmptyShare) else Ok((blob[0], blob[1..]))
  }

  /** Unpacking a packed share gives back exactly its key and bytes. */
  lemma UnpackPacked(shareKey: byte, shareValue: seq<byte>)
    ensures UnpackShare(PackShare(shareKey, shareValue)) == Ok((shareKey, shareValue))
  {
    assert PackShare(shareKey, shareValue)[1..] == shareValue;
  }

  /** Every blob that unpacks is the packing of what it unpacks to. */
  lemma PackUnpacked(blob: seq<byte>)
    ensures UnpackShare(blob).Ok? ==> PackShare(UnpackShare(blob).value.0, UnpackShare(blob).value.1) == blob
  {
    if |blob| > 0 {
      assert [blob[0]] + blob[1..] == blob;
    }
  }

  /** What the storage holds at `id`; a missing location reads as the empty value. */
  function Fetch(store: Storage, id: ID): seq<byte>
  {
    if id in store then store[id] else []
  }

  // ---------------------------------------------------------------------------
  // VanishData

  /** The elements of `s` are pairwise distinct. */
  predicate Distinct<T(==)>(s: seq<T>)
  {
    forall i, j :: 0 <= i < j < |s| ==> s[i] != s[j]
  }

  /**
   * The store loop of `VanishData`: the `index`-th share in iteration order
   * `order` is written to `ids[index]`. Writing past the last location fails.
   */
  function StoreShares(store: Storage, ids: seq<ID>, order: seq<byte>, split: map<byte, seq<byte>>, index: nat): (r: Result<Storage, VanishError>)
    requires index <= |order|
    requires forall x :: x in order ==> x in split
    ensures r.Ok? <==> index == |order| || |order| <= |ids|
    ensures r.Err? ==> r.error == LocationOutOfRange
    decreases |order| - index
  {
    if index == |order| then Ok(store)
    else if index >= |ids| then Err(LocationOutOfRange)
    else
      var shareKey := order[index];
      StoreShares(store[ids[index] := PackShare(shareKey, split[shareKey])], ids, order, split, index + 1)
  }

  /** No location written after the `c`-th write, before the `n`-th, is the `c`-th location. */
  predicate LastWrite(ids: seq<ID>, n: nat, c: nat)
  {
    c < n <= |ids| && forall c' :: c < c' < n ==> ids[c'] != ids[c]
  }

  /** Some write among `index .. n - 1` goes to `id`. */
  predicate WrittenFrom(ids: seq<ID>, index: nat, n: nat, id: ID)
  {
    exists c :: index <= c < n && c < |ids| && ids[c] == id
  }

  /** One step of the store loop. */
  lemma StoreSharesStep(store: Storage, ids: seq<ID>, order: seq<byte>, split: map<byte, seq<byte>>, index: nat)
    requires index < |order| <= |ids|
    requires forall x :: x in order ==> x in split
    ensures StoreShares(store, ids, order, split, index)
      == StoreShares(store[ids[index] := PackShare(order[index], split[order[index]])], ids, order, split, index + 1)
  {
  }

  /** An ID the store loop does not write keeps its old value, or stays absent. */
  lemma {:induction false} StoreSharesUntouched(store: Storage, ids: seq<ID>, order: seq<byte>, split: map<byte, seq<byte>>, index: nat, id: ID)
    requires index <= |order| <= |ids|
    requires forall x :: x in order ==> x in split
    requires !WrittenFrom(ids, index, |order|, id)
    ensures var r := StoreShares(store, ids, order, split, index).value;
      (id in r <==> id in store) && (id in store ==> r[id] == store[id])
    decreases |order| - index
  {
    if index < |order| {
      var store1 := store[ids[index] := PackShare(order[index], split[order[index]])];
      StoreSharesStep(store, ids, order, split, index);
      assert !WrittenFrom(ids, index + 1, |order|, id) && id != ids[index];
      StoreSharesUntouched(store1, ids, order, split, index + 1, id);
    }
  }

  /** A location not written again later holds the packed share written there. */
  lemma {:induction false} StoreSharesLast(store: Storage, ids: seq<ID>, order: seq<byte>, split: map<byte, seq<byte>>, index: nat, c: nat)
    requires index <= c < |order| <= |ids|
    requires forall x :: x in order ==> x in split
    requires LastWrite(ids, |order|, c)
    ensures var r := StoreShares(store, ids, order, split, index).value;
      ids[c] in r && r[ids[c]] == PackShare(order[c], split[order[c]])
    decreases c - index
  {
    var store1 := store[ids[index] := PackShare(order[index], split[order[index]])];
    StoreSharesStep(store, ids, order, split, index);
    if c == index {
      assert !WrittenFrom(ids, index + 1, |order|, ids[index]);
      StoreSharesUntouched(store1, ids, order, split, index + 1, ids[index]);
      assert ids[index] in store1;
    } else {
      StoreSharesLast(store1, ids, order, split, index + 1, c);
    }
  }

  /**
   * `VanishData`. The caller's `threshold` is ignored and replaced by
   * `Threshold(numberKeys)`. `contentKey` and `accessKey` are the random
   * values the Go code generates; `order` is the order in which Go happens
   * to iterate over the split map (any order of its keys).
   */
  function VanishData(
    env: Collaborators, prng: Prng, store: Storage,
    data: seq<byte>, numberKeys: byte, threshold: byte,
    contentKey: seq<byte>, accessKey: int64, order: seq<byte>): (r: Result<(VanishingDataObject, Storage), VanishError>)
    requires Distinct(order)
    requires forall x :: x in order <==> x in env.split(numberKeys, Threshold(numberKeys), contentKey)
    ensures r.Ok? <==> |order| <= numberKeys as int
    ensures r.Err? ==> r.error == LocationOutOfRange
    ensures r.Ok? ==> r.value.0 == VanishingDataObject(
      accessKey, env.encrypt(contentKey, data), numberKeys, Threshold(numberKeys))
  {
    var t := Threshold(numberKeys);
    var split := env.split(numberKeys, t, contentKey);
    var ids := Locations(prng(accessKey), numberKeys as nat);
    match StoreShares(store, ids, order, split, 0)
    case Err(e) => Err(e)
    case Ok(store') => Ok((VanishingDataObject(accessKey, env.encrypt(contentKey, data), numberKeys, t), store'))
  }

  /**
   * Where `VanishData` puts the shares: when the locations are distinct,
   * the `c`-th share in iteration order sits packed at location `c`, and
   * every other ID of the storage is untouched.
   */
  lemma VanishDataStores(
    env: Collaborators, prng: Prng, store: Storage,
    data: seq<byte>, numberKeys: byte, threshold: byte,
    contentKey: seq<byte>, accessKey: int64, order: seq<byte>)
    requires Distinct(order)
    requires forall x :: x in order <==> x in env.split(numberKeys, Threshold(numberKeys), contentKey)
    requires Distinct(Locations(prng(accessKey), numberKeys as nat))
    requires |order| <= numberKeys as int
    ensures var r := VanishData(env, prng, store, data, numberKeys, threshold, contentKey, accessKey, order);
      var ids := Locations(prng(accessKey), numberKeys as nat);
      var split := env.split(numberKeys, Threshold(numberKeys), contentKey);
      && r.Ok?
      && (forall c :: 0 <= c < |order| ==>
            ids[c] in r.value.1 && r.value.1[ids[c]] == PackShare(order[c], split[order[c]]))
      && (forall id :: id !in ids[..|order|] ==>
            (id in r.value.1 <==> id in store) && (id in store ==> r.value.1[id] == store[id]))
  {
    var ids := Locations(prng(accessKey), numberKeys as nat);
    var split := env.split(numberKeys, Threshold(numberKeys), contentKey);
    var r := StoreShares(store, ids, order, split, 0).value;
    forall c | 0 <= c < |order|
      ensures ids[c] in r && r[ids[c]] == PackShare(order[c], split[order[c]])
    {
      assert LastWrite(ids, |order|, c);
      StoreSharesLast(store, ids, order, split, 0, c);
    }
    forall id | id !in ids[..|order|]
      ensures (id in r <==> id in store) && (id in store ==> r[id] == store[id])
    {
      forall c | 0 <= c < |order|
        ensures ids[c] != id
      {
        assert ids[..|order|][c] == ids[c];
      }
      StoreSharesUntouched(store, ids, order, split, 0, id);
    }
  }

  /** A sequence without repeats has as many elements as its set. */
  lemma {:induction false} DistinctCardinality(s: seq<byte>)
    requires Distinct(s)
    ensures |set x | x in s| == |s|
  {
    if |s| > 0 {
      var last := s[|s| - 1];
      var init := s[..|s| - 1];
      assert Distinct(init);
      DistinctCardinality(init);
      assert (set x | x in s) == (set x | x in init) + {last};
      assert last !in init;
    }
  }

  /**
   * Since the iteration order lists every share once, the store loop stays
   * in bounds exactly when the split produced at most `numberKeys` shares.
   */
  lemma VanishDataInBounds(
    env: Collaborators, prng: Prng, store: Storage,
    data: seq<byte>, numberKeys: byte, threshold: byte,
    contentKey: seq<byte>, accessKey: int64, order: seq<byte>)
    requires Distinct(order)
    requires forall x :: x in order <==> x in env.split(numberKeys, Threshold(numberKeys), contentKey)
    ensures VanishData(env, prng, store, data, numberKeys, threshold, contentKey, accessKey, order).Ok?
      <==> |env.split(numberKeys, Threshold(numberKeys), contentKey)| <= numberKeys as int
  {
    var split := env.split(numberKeys, Threshold(numberKeys), contentKey);
    DistinctCardinality(order);
    assert (set x | x in order) == split.Keys;
  }

  // ---------------------------------------------------------------------------
  // UnvanishData

  /** The locations `count .. thres` all exist and all hold a non-empty value. */
  predicate SharesPresent(store: Storage, ids: seq<ID>, thres: nat, count: nat)
  {
    thres < |ids| && forall c :: count <= c <= thres ==> |Fetch(store, ids[c])| > 0
  }

  /**
   * The retrieval loop of `UnvanishData` from `count` on: query
   * `ids[count]`, `ids[count + 1]`, ..., `ids[thres]`, unpack each value and
   * record its share, a later share with the same key replacing an earlier
   * one.
   */
  function CollectShares(store: Storage, ids: seq<ID>, thres: nat, count: nat, shares: map<byte, seq<byte>>): (r: Result<map<byte, seq<byte>>, VanishError>)
    ensures r.Ok? <==> count > thres || SharesPresent(store, ids, thres, count)
    decreases thres + 1 - count
  {
    if count > thres then Ok(shares)
    else if count >= |ids| then Err(LocationOutOfRange)
    else match UnpackShare(Fetch(store, ids[count]))
      case Err(e) => Err(e)
      case Ok((k, v)) => CollectShares(store, ids, thres, count + 1, shares[k := v])
  }

  /** The share key stored at location `c`; `0` where there is no share. */
  function KeyAt(store: Storage, ids: seq<ID>, c: nat): byte
  {
    if c < |ids| && |Fetch(store, ids[c])| > 0 then Fetch(store, ids[c])[0] else 0
  }

  /** Some location among `count .. thres` carries key `x`. */
  predicate Queried(store: Storage, ids: seq<ID>, thres: nat, count: nat, x: byte)
  {
    exists c :: count <= c <= thres && KeyAt(store, ids, c) == x
  }

  /** No location after `c`, up to `thres`, carries the key found at `c`. */
  predicate LastWithKey(store: Storage, ids: seq<ID>, thres: nat, c: nat)
  {
    forall c' :: c < c' <= thres ==> KeyAt(store, ids, c') != KeyAt(store, ids, c)
  }

  lemma QueriedStep(store: Storage, ids: seq<ID>, thres: nat, count: nat, x: byte)
    requires count <= thres
    ensures Queried(store, ids, thres, count, x) <==> KeyAt(store, ids, count) == x || Queried(store, ids, thres, count + 1, x)
  {
    if Queried(store, ids, thres, count, x) && KeyAt(store, ids, count) != x {
      var c :| count <= c <= thres && KeyAt(store, ids, c) == x;
      assert count + 1 <= c;
    }
    if Queried(store, ids, thres, count + 1, x) {
      var c :| count + 1 <= c <= thres && KeyAt(store, ids, c) == x;
    }
  }

  /** One step of the retrieval loop. */
  lemma CollectSharesStep(store: Storage, ids: seq<ID>, thres: nat, count: nat, shares: map<byte, seq<byte>>)
    requires count <= thres
    requires SharesPresent(store, ids, thres, count)
    ensures CollectShares(store, ids, thres, count, shares)
      == CollectShares(store, ids, thres, count + 1, shares[KeyAt(store, ids, count) := Fetch(store, ids[count])[1..]])
  {
  }

  /**
   * The keys the retrieval loop collects: those already collected plus the
   * key found at each queried location.
   */
  lemma {:induction false} CollectSharesKeys(store: Storage, ids: seq<ID>, thres: nat, count: nat, shares: map<byte, seq<byte>>, x: byte)
    requires count <= thres + 1
    requires SharesPresent(store, ids, thres, count)
    ensures x in CollectShares(store, ids, thres, count, shares).value <==> x in shares || Queried(store, ids, thres, count, x)
    decreases thres + 1 - count
  {
    if count <= thres {
      var shares1 := shares[KeyAt(store, ids, count) := Fetch(store, ids[count])[1..]];
      CollectSharesStep(store, ids, thres, count, shares);
      CollectSharesKeys(store, ids, thres, count + 1, shares1, x);
      QueriedStep(store, ids, thres, count, x);
    }
  }

  /** A collected share whose key no queried location carries keeps its bytes. */
  lemma {:induction false} CollectSharesKept(store: Storage, ids: seq<ID>, thres: nat, count: nat, shares: map<byte, seq<byte>>, x: byte)
    requires count <= thres + 1
    requires SharesPresent(store, ids, thres, count)
    requires x in shares && !Queried(store, ids, thres, count, x)
    ensures var r := CollectShares(store, ids, thres, count, shares).value;
      x in r && r[x] == shares[x]
    decreases thres + 1 - count
  {
    if count <= thres {
      var shares1 := shares[KeyAt(store, ids, count) := Fetch(store, ids[count])[1..]];
      CollectSharesStep(store, ids, thres, count, shares);
      QueriedStep(store, ids, thres, count, x);
      CollectSharesKept(store, ids, thres, count + 1, shares1, x);
    }
  }

  /**
   * A key found at a queried location is mapped to the bytes of the last
   * queried location carrying it.
   */
  lemma {:induction false} CollectSharesLast(store: Storage, ids: seq<ID>, thres: nat, count: nat, shares: map<byte, seq<byte>>, c: nat)
    requires count <= c <= thres
    requires SharesPresent(store, ids, thres, count)
    requires LastWithKey(store, ids, thres, c)
    ensures var r := CollectShares(store, ids, thres, count, shares).value;
      KeyAt(store, ids, c) in r && r[KeyAt(store, ids, c)] == Fetch(store, ids[c])[1..]
    decreases c - count
  {
    var k := KeyAt(store, ids, count);
    var shares1 := shares[k := Fetch(store, ids[count])[1..]];
    CollectSharesStep(store, ids, thres, count, shares);
    if c == count {
      assert !Queried(store, ids, thres, count + 1, k);
      CollectSharesKept(store, ids, thres, count + 1, shares1, k);
    } else {
      CollectSharesLast(store, ids, thres, count + 1, shares1, c);
    }
  }

  /**
   * `UnvanishData`: re-derive the locations from the access key and the
   * number of keys, collect the shares at locations `0 .. Threshold`, then
   * combine them into the key and decrypt. It succeeds exactly when the
   * threshold is below the number of keys and all `Threshold + 1` queried
   * locations hold a value.
   */
  function UnvanishData(env: Collaborators, prng: Prng, store: Storage, vdo: VanishingDataObject): (r: Result<seq<byte>, VanishError>)
    ensures r.Ok? <==> SharesPresent(store, Locations(prng(vdo.AccessKey), vdo.NumberKeys as nat), vdo.Threshold as nat, 0)
    ensures r.Ok? ==> vdo.Threshold < vdo.NumberKeys
  {
    var ids := Locations(prng(vdo.AccessKey), vdo.NumberKeys as nat);
    match CollectShares(store, ids, vdo.Threshold as nat, 0, map[])
    case Err(e) => Err(e)
    case Ok(shares) => Ok(env.decrypt(env.combine(shares), vdo.Ciphertext))
  }

  /** The shares of the first `n` keys in iteration order. */
  function SharesOf(split: map<byte, seq<byte>>, order: seq<byte>, n: nat): (m: map<byte, seq<byte>>)
    requires n <= |order|
    requires forall x :: x in order ==> x in split
    ensures forall x :: x in m <==> x in order[..n]
    ensures forall x :: x in m ==> x in split && m[x] == split[x]
  {
    assert forall x :: x in order[..n] ==> x in order;
    map x | x in order[..n] :: split[x]
  }

  /**
   * Round trip. After `VanishData` succeeds with `numberKeys >= 1` shares at
   * distinct locations, `UnvanishData` on the returned object reads exactly
   * the shares stored at locations `0 .. Threshold`, each unpacked to its
   * original key and bytes, and combines them: the result is the
   * ciphertext decrypted under the combination of those `Threshold + 1`
   * shares. If that combination is the content key and decryption inverts
   * encryption, the original data comes back.
   */
  lemma VanishUnvanishRoundTrip(
    env: Collaborators, prng: Prng, store: Storage,
    data: seq<byte>, numberKeys: byte, threshold: byte,
    contentKey: seq<byte>, accessKey: int64, order: seq<byte>)
    requires numberKeys >= 1
    requires Distinct(order)
    requires forall x :: x in order <==> x in env.split(numberKeys, Threshold(numberKeys), contentKey)
    requires |order| == numberKeys as int
    requires Distinct(Locations(prng(accessKey), numberKeys as nat))
    ensures var r := VanishData(env, prng, store, data, numberKeys, threshold, contentKey, accessKey, order);
      var split := env.split(numberKeys, Threshold(numberKeys), contentKey);
      var used := SharesOf(split, order, Threshold(numberKeys) as nat + 1);
      && r.Ok?
      && UnvanishData(env, prng, r.value.1, r.value.0)
           == Ok(env.decrypt(env.combine(used), env.encrypt(contentKey, data)))
      && (env.combine(used) == contentKey && env.decrypt(contentKey, env.encrypt(contentKey, data)) == data ==>
            UnvanishData(env, prng, r.value.1, r.value.0) == Ok(data))
  {
    var split := env.split(numberKeys, Threshold(numberKeys), contentKey);
    var ids := Locations(prng(accessKey), numberKeys as nat);
    VanishDataStores(env, prng, store, data, numberKeys, threshold, contentKey, accessKey, order);
    var r := VanishData(env, prng, store, data, numberKeys, threshold, contentKey, accessKey, order);
    var store' := r.value.1;
    forall c | 0 <= c < |order|
      ensures Fetch(store', ids[c]) == PackShare(order[c], split[order[c]])
    {
    }
    UnvanishStored(env, prng, store', r.value.0, order, split);
  }

  /**
   * `UnvanishData` on an object whose `c`-th location holds the `c`-th
   * share packed, for every share of a repeat-free order of as many shares
   * as the object's number of keys, combines exactly the first
   * `Threshold + 1` shares.
   */
  lemma UnvanishStored(env: Collaborators, prng: Prng, store: Storage, vdo: VanishingDataObject, order: seq<byte>, split: map<byte, seq<byte>>)
    requires vdo.Threshold == Threshold(vdo.NumberKeys) && vdo.NumberKeys >= 1
    requires |order| == vdo.NumberKeys as int
    requires Distinct(order)
    requires forall x :: x in order ==> x in split
    requires forall c :: 0 <= c < |order| ==>
      Fetch(store, Locations(prng(vdo.AccessKey), vdo.NumberKeys as nat)[c]) == PackShare(order[c], split[order[c]])
    ensures UnvanishData(env, prng, store, vdo)
      == Ok(env.decrypt(env.combine(SharesOf(split, order, vdo.Threshold as nat + 1)), vdo.Ciphertext))
  {
    StoredSharesReadBack(store, Locations(prng(vdo.AccessKey), vdo.NumberKeys as nat), order, split, vdo.Threshold as nat);
  }

  /**
   * Reading back: if location `c` holds the `c`-th share packed, for every
   * share of a repeat-free iteration order, the retrieval loop up to `t`
   * collects exactly the first `t + 1` shares with their original bytes.
   */
  lemma StoredSharesReadBack(store: Storage, ids: seq<ID>, order: seq<byte>, split: map<byte, seq<byte>>, t: nat)
    requires t < |order| <= |ids|
    requires Distinct(order)
    requires forall x :: x in order ==> x in split
    requires forall c :: 0 <= c < |order| ==> Fetch(store, ids[c]) == PackShare(order[c], split[order[c]])
    ensures CollectShares(store, ids, t, 0, map[]) == Ok(SharesOf(split, order, t + 1))
  {
    PackedSharesPresent(store, ids, order, split, t);
    var got := CollectShares(store, ids, t, 0, map[]).value;
    var used := SharesOf(split, order, t + 1);
    ReadBackKeys(store, ids, order, split, t);
    ReadBackValues(store, ids, order, split, t);
    assert got.Keys == used.Keys;
    assert forall x :: x in got ==> got[x] == used[x];
    assert got == used;
  }

  /** Each queried location holds a non-empty value whose key and bytes are those of the share stored there. */
  lemma PackedSharesPresent(store: Storage, ids: seq<ID>, order: seq<byte>, split: map<byte, seq<byte>>, t: nat)
    requires t < |order| <= |ids|
    requires forall x :: x in order ==> x in split
    requires forall c :: 0 <= c < |order| ==> Fetch(store, ids[c]) == PackShare(order[c], split[order[c]])
    ensures SharesPresent(store, ids, t, 0)
    ensures forall c :: 0 <= c <= t ==> KeyAt(store, ids, c) == order[c]
    ensures forall c :: 0 <= c <= t ==> Fetch(store, ids[c])[1..] == split[order[c]]
  {
    forall c | 0 <= c <= t
      ensures |Fetch(store, ids[c])| > 0
      ensures Fetch(store, ids[c])[0] == order[c] && Fetch(store, ids[c])[1..] == split[order[c]]
    {
      UnpackPacked(order[c], split[order[c]]);
    }
  }

  /** The keys collected are those of the first `t + 1` shares. */
  lemma ReadBackKeys(store: Storage, ids: seq<ID>, order: seq<byte>, split: map<byte, seq<byte>>, t: nat)
    requires t < |order| <= |ids|
    requires forall x :: x in order ==> x in split
    requires SharesPresent(store, ids, t, 0)
    requires forall c :: 0 <= c <= t ==> KeyAt(store, ids, c) == order[c]
    ensures CollectShares(store, ids, t, 0, map[]).Ok?
    ensures CollectShares(store, ids, t, 0, map[]).value.Keys == SharesOf(split, order, t + 1).Keys
  {
    var got := CollectShares(store, ids, t, 0, map[]).value;
    var used := SharesOf(split, order, t + 1);
    forall x
      ensures x in got <==> x in used
    {
      CollectSharesKeys(store, ids, t, 0, map[], x);
      if x in got {
        var c :| 0 <= c <= t && KeyAt(store, ids, c) == x;
        assert order[..t + 1][c] == x;
      }
      if x in used {
        var c :| 0 <= c < t + 1 && order[..t + 1][c] == x;
        assert KeyAt(store, ids, c) == x;
      }
    }
  }

  /** Each of the first `t + 1` shares is collected with its original bytes. */
  lemma ReadBackValues(store: Storage, ids: seq<ID>, order: seq<byte>, split: map<byte, seq<byte>>, t: nat)
    requires t < |order| <= |ids|
    requires Distinct(order)
    requires forall x :: x in order ==> x in split
    requires SharesPresent(store, ids, t, 0)
    requires forall c :: 0 <= c <= t ==> KeyAt(store, ids, c) == order[c]
    requires forall c :: 0 <= c <= t ==> Fetch(store, ids[c])[1..] == split[order[c]]
    ensures CollectShares(store, ids, t, 0, map[]).Ok?
    ensures var got := CollectShares(store, ids, t, 0, map[]).value;
      forall x :: x in SharesOf(split, order, t + 1) ==> x in got && got[x] == SharesOf(split, order, t + 1)[x]
  {
    var got := CollectShares(store, ids, t, 0, map[]).value;
    var used := SharesOf(split, order, t + 1);
    forall x | x in used
      ensures x in got && got[x] == used[x]
    {
      var c :| 0 <= c < t + 1 && order[..t + 1][c] == x;
      assert order[c] == x;
      assert LastWithKey(store, ids, t, c);
      CollectSharesLast(store, ids, t, 0, map[], c);
    }
  }
}

=== FILE: wrappers.dfy ===
/** Failure-carrying result types shared by the routing-table and vanish models. */
module Wrappers {

  /** An optional value: `None` when nothing was produced. */
  datatype Option<+T> = None | Some(value: T)

  /** Either a value or an error, for operations that can fail. */
  datatype Result<+R, +E> = Ok(value: R) | Err(error: E)
}
